=== FILE: README.md ===
# A verified model of a small Gemini terminal client

The client fetches one Gemini page over TLS and renders it as gemtext in a
terminal. The user then scrolls it and opens new addresses from a
vi-like command line. This project models the four pieces of logic in that
client that work on their own data. Everything around them (mbedtls, termios,
stdio) becomes parameters or is left out.

- **Keystroke machine** (`parse_input`, term.c). Module `TermInput`.
  - A 100-byte command buffer is edited in place, one key at a time.
  - In normal mode, q, j and k submit ":quit", ":down" and ":up".
  - ':' opens a command line, where keys are typed, DEL erases and Enter submits.
- **Gemtext renderer** (`print_text`, term.c). Modules `TermRender` and `RenderProperties`.
  - One pass over the body classifies lines: heading levels that saturate at three, list items, quotes and preformatted fences.
  - Lines are hard-wrapped at the terminal width and clipped to the scroll window, and the pass reports whether it reached the end of the body.
  - Terminal output is a sequence of abstract events: style reset, line-class style, character, bullet.
  - `StepChar` is one iteration of the loop as a function and `Run` is the whole loop. `PrintText` is the loop itself, proved to produce what `Run` describes.
- **Request line and navigation** (main.c). Modules `Request` and `Navigation`.
  - `strpre` prepends in place.
  - `setup_request` prints `scheme://host[:port]/path[?query]` and CR LF.
  - `parse_input_url` adds a "://" when the text has none, and fills in the default scheme "gemini" and the default port 1965.
  - The main loop is the class `Client`, with the fetch, frame, key and command-dispatch phases as methods.
  - The library parser `parse_url` is a function-valued parameter.
- **Trust on first use and response accumulation** (net.c). Module `Net`.
  - `check_cert` works over a pin directory modelled as a map from file path to bytes, and a trusted chain.
  - `read_response` consumes a sequence of `mbedtls_ssl_read` results. It grows the response buffer with realloc and strcat and bumps the caller's byte counter.
- **C-string helpers**. Module `CStrings`.
  - strlen, strcpy and strcat act on `array<char>` buffers, and the string a buffer holds is the prefix before its first NUL.

Each operation is paired with an independent statement of what it must do:

- `Request.DecodeRequest` is a separate reader of request lines, and `RequestLineRoundTrip` proves the printed line reads back as the URL.
- `Net.Session` and `Net.FirstFailureFor` give the whole-session meaning of the pin decision.
- `Navigation.Dispatch` is the command step as a function. The `Client` methods are proved against it.

## Model

| member | source | states |
|---|---|---|
| CStrings.StrLen | term.c:83 | `strlen`: the index of the first NUL, or the whole length when there is none |
| CStrings.CStr | main.c:163 | the string a buffer holds: its NUL-free prefix up to the first NUL |
| CStrings.StrCpy | main.c:205 | the buffer afterwards holds exactly the copied string, terminated, with every later byte unchanged |
| CStrings.StrCat | net.c:214 | the source is written where the old string ended: the buffer holds old string + source, later bytes unchanged, and a zero-filled buffer stays zero-filled |
| TermInput.Key | term.c:53-94 | the two switches of `parse_input` on the buffer's string: in normal mode q, j, k append ":quit", ":down", ":up" and submit, ':' appends ":", others do nothing; in command mode DEL drops the last character, '\n' submits, others are appended |
| TermInput.ParseInput | term.c:53-94 | the buffer stays zero-filled past its string; its string becomes what `Key` says for the key and the old string, and the result is 1 exactly when that key submits |
| TermInput.ZeroFilledAfterErase | term.c:83 | writing NUL over the last character of a zero-filled buffer drops exactly that character and keeps the buffer zero-filled |
| TermInput.ZeroFilledAfterStore | term.c:89 | writing a key over the terminator appends it (a NUL key changes nothing) and keeps the buffer zero-filled |
| TermInput.KeyKeepsReachable | term.c:55-93 | from an empty buffer or a command line, every key leaves an empty buffer or a command line |
| TermInput.SubmittedIsCommandLine | term.c:55-93 | whenever a key submits, the submitted buffer starts with ':' |
| TermInput.NormalModeKeys | term.c:55-76 | on an empty buffer q, j, k submit ":quit", ":down", ":up"; ':' yields ":" unsubmitted; any other key changes nothing and submits nothing |
| TermInput.BackspaceUndoesTyping | term.c:80-91 | in command mode DEL erases exactly the character just typed, and erasing a lone ':' returns to the empty buffer (normal mode) |
| TermInput.TypingAppends | term.c:88-91 | in command mode a run of ordinary keys appends exactly those characters and submits nothing |
| TermInput.CommandLineSubmits | term.c:71-86 | from an empty buffer, ':' then ordinary keys then Enter submits ':' followed by those keys |
| TermInput.KeysSplit | term.c:53-94 | a sequence of keys followed by one more is that key applied to the buffer the sequence left |
| TermRender.Raise | term.c:211-217 | a further leading '#': classes before HEADING become HEADING, heading levels go up one, SUBSUBHEADING stays |
| TermRender.StyleOf | term.c:232-257 | the escape written before each character of a preformatted, heading or quote line, none for normal and list lines |
| TermRender.StepChar | term.c:122-164 | one iteration: position count, wrap output, the stop test, the line-break bookkeeping (with the toggle line's skip to `end`), then `Classify` |
| TermRender.Classify | term.c:160-179 | clipping of scrolled-off lines, the leading-space rule, and inside a block the backtick count or the verbatim character |
| TermRender.Markup | term.c:180-266 | outside a block: the switch on a line's leading character ('`', '*', '>', '#'), the single '#' before a heading's text, and the style switch before `putchar` |
| TermRender.Run | term.c:120-272 | the loop over the body from a cursor: everything written and `reached_end`, false exactly when a step stops it |
| TermRender.Render | term.c:109-273 | `print_text(buf, strlen(buf), ws, start_line)`: `Run` from the initial loop variables |
| TermRender.PrintChar | term.c:122-266 | one pass of the loop body, written with the source's variables and exits, is exactly the step function `StepChar` |
| TermRender.PrintText | term.c:109-273 | the loop writes exactly the events of `Render(buf, view)` and returns its `reached_end` |
| RenderProperties.StepPosition | term.c:123-148 | a step halts iff the cursor's line is more than `ws_row - 2` below `start_line`; otherwise '\n' or a wrap moves to column 0 of the next line and any other character advances the column by one |
| RenderProperties.StepMoreRows | term.c:135-138 | with a taller window a step that went on is unchanged, and a step that halted writes a prefix of what the taller one writes |
| RenderProperties.RunAppend | term.c:120-270 | rendering `a + b` is rendering `a` and, unless that stopped, rendering `b` from the cursor `a` left |
| RenderProperties.StreamingOutput | term.c:120-270 | output for a prefix of the body is a prefix of the output for the whole body, and nothing after a stop changes the result |
| RenderProperties.MoreRowsExtends | term.c:135-138 | a taller window writes an extension of what a shorter one writes, and the same rendering once the shorter one reached the end |
| RenderProperties.ShortBodyReachesEnd | term.c:135-138 | a body with no more characters than rows left in the window always reaches its end |
| RenderProperties.ReachedEndExactly | term.c:113-138 | for lines that need no wrapping: `reached_end` holds iff the last character's line lies within `ws_row - 2` of `start_line`, and the final line number is the start plus the newlines read |
| RenderProperties.RenderReachedEnd | term.c:109-272 | the same iff for `print_text` from the first line of the body |
| RenderProperties.TextRun | term.c:232-266 | after the leading character, each character of a classified line is written after the line's style escape |
| RenderProperties.HashesRaiseLevel | term.c:211-217 | leading '#' characters write nothing and raise NORMAL to HEADING, then SUBHEADING, saturating at SUBSUBHEADING |
| RenderProperties.HeadingLineFrom | term.c:211-263 | a line of `k` '#' then text writes the heading style, one '#', and the text in the style of level min(k, 3) |
| RenderProperties.HeadingLineRendering | term.c:211-263 | the same, and four or more '#' render exactly as three do |
| RenderProperties.ListLineRendering | term.c:202-207 | a leading '*' is replaced by a bullet and the rest is written unstyled |
| RenderProperties.QuoteLineRendering | term.c:197-255 | a leading '>' is written itself, and it and the rest carry the quote style |
| RenderProperties.UnstyledIsPlain | term.c:234-236 | a line class with no escape writes its characters as they are |
| RenderProperties.FenceLine | term.c:141-195 | a "```" line flips the preformatted flag and writes only the style reset of its line break |
| RenderProperties.FenceAltTextShown | term.c:166-195 | an opening fence followed by text ("```gemini") writes that text and the line break verbatim, because the third backtick already opened the block, and the next line starts inside the block |
| RenderProperties.FenceParity | term.c:187-195 | after `n` fence lines the preformatted flag has flipped iff `n` is odd, and only `n` resets are written |
| RenderProperties.FencesFromTop | term.c:187-195 | from the top of a body, `n` fence lines leave the renderer inside a block iff `n` is odd |
| RenderProperties.PreformattedText | term.c:166-180 | inside a block a line without backticks is written verbatim without any style or heading/list/quote classification, and the block stays open |
| RenderProperties.BlockBacktickCounted | term.c:166-195 | inside a block, text without backticks followed by a backtick writes the text, swallows the backtick and counts it, since the line-start flag is never cleared there; the block closes once the count passes two |
| RenderProperties.HardWrap | term.c:128-158 | on lines from `start_line` on, a character past column `ws_col - 1` is written as it is, then the style is reset and a newline written, and the next line starts at column 0 |
| RenderProperties.HardWrapDropsCharAboveStart | term.c:128-164 | on line `start_line - 1`, whose characters are still written, the wrap character is not: only the reset and the newline are written, so that character is lost |
| RenderProperties.ColumnBounded | term.c:123-148 | the column counter never reaches `ws_col` |
| RenderProperties.LeadingSpaceElided | term.c:163-164 | when the window is at least two columns wide, a space as the first character of a line is not written |
| RenderProperties.LineMonotone | term.c:141-158 | the line counter never decreases |
| RenderProperties.ScrolledOffLinesSilent | term.c:123-161 | any text ending on a line above `start_line - 1`, hard-wrapped or not, writes only style resets, exactly one per line it moves down, cannot open or close a block, and never stops the loop |
| Request.StrPre | main.c:14-19 | the buffer afterwards holds `t` followed by its old string, terminated, with the bytes after it unchanged |
| Request.WithScheme | main.c:64-65 | the text handed to the parser always contains "://"; it is the input when that already has one, and "://" + input otherwise |
| Request.WithSchemeIdempotent | main.c:64-65 | a second pass adds nothing |
| Request.RequestLine | main.c:28-58 | the `sprintf` line: scheme or "gemini", "://", host, ":" port if any, "/", path or nothing, "?" query if any, CR LF |
| Request.RequestLineShape | main.c:58 | the request line is NUL-free, contains "://" and ends in CR LF |
| Request.QueryAllocationOneShort | main.c:48-50 | with a query present, the bytes written exceed the bytes allocated by one |
| Request.QueryBufferSize | main.c:46-56 | the corrected allocation equals the bytes written: one more than the source's whenever a query is present |
| Request.BuildPortField | main.c:33-39 | the `port` buffer holds ":" and the port when there is one and is empty otherwise |
| Request.BuildQueryField | main.c:46-56 | the `query` buffer, of the corrected size, holds "?" and the query when there is one and is empty otherwise |
| Request.SetupRequest | main.c:21-60 | `get_request` holds exactly scheme (or "gemini") + "://" + host + [":" port] + "/" + path + ["?" query] + CR LF |
| Request.RequestLineRoundTrip | main.c:21-60 | an independent reader recovers the URL from its request line, with the default scheme filled in and an empty path read as none |
| Request.AuthorityRoundTrip | main.c:33-39 | the host and `port` field split back into host and port |
| Request.TargetRoundTrip | main.c:41-56 | the path and `query` field split back into path and query |
| Request.ParseInputUrl | main.c:62-82 | `get_request` becomes the request line of the parsed text (with "://" prefixed when missing), `server_name` the host, and `server_port` the port or "1965" |
| Request.SecondParseKeepsText | main.c:149 | parsing a request line again does not prefix a second "://" |
| Net.ToCInt | net.c:145 | the returned `int` is the verify result modulo 2^32 in the signed range |
| Net.ToCIntZero | net.c:114 | only a zero verify result returns 0 |
| Net.PinPath | net.c:120 | the pin path has length |certs_path| + |server_name| + 5 ("/" and ".crt") |
| Net.PinPathInjective | net.c:120 | distinct hosts have distinct pin files in one directory |
| Net.Decide | net.c:114-131 | verified when the result is 0; otherwise a mismatch when the pin file exists, a new pin when it does not |
| Net.AfterCheck | net.c:114-142 | no pin is ever removed or changed, and nothing changes at all unless verification failed for a host with no pin |
| Net.FirstFailurePins | net.c:131-142 | a failed verification for an unpinned host pins the peer's raw bytes and appends the certificate to the chain when it parses |
| Net.Session | net.c:110-146 | the trust state after `check_cert` on each connection in turn |
| Net.FirstFailureFor | net.c:131-142 | the peer certificate of the first connection to fail verification whose host maps to the pin file, if any |
| Net.PinsNeverChange | net.c:123-130 | over any sequence of connections an existing pin stays and keeps its bytes |
| Net.PinIsFirstFailure | net.c:110-146 | an unpinned host ends up pinned iff some connection to it failed verification, and the pin is the first such connection's certificate |
| Net.TrustStore.CheckCert | net.c:110-146 | the store becomes `AfterCheck` of the old one, written byte by byte; `mismatch` is reported exactly for a failed host that is already pinned; the verify result is returned in every case |
| Net.Received | net.c:187-215 | the text `read_response` appends: each chunk up to its first NUL, in order, skipping retries, up to the first stop |
| Net.Added | net.c:187-212 | what `*buflen` grows by: the sum of the chunk lengths up to the first stop |
| Net.ReceivedWithinCount | net.c:211-215 | the text received is never longer than the growth of `*buflen`, so the reallocated buffer always has room |
| Net.RetriesAreTransparent | net.c:193-194 | a WANT_READ or WANT_WRITE anywhere changes neither the text nor the count |
| Net.NothingAfterStop | net.c:196-209 | close-notify, any other negative code or a zero read ends the response: nothing after it is read |
| Net.ChunkEndsAtNul | net.c:214 | a chunk contributes only its bytes before the first NUL |
| Net.ReadResponse | net.c:180-220 | the buffer holds exactly the chunks up to the first stop, each up to its first NUL, in order; `*buflen` grows by exactly the sum of the counts; the result is the old buffer or a fresh one |
| Net.TakeRead | net.c:187-215 | one pass stops exactly on a stop result, and otherwise appends the chunk and grows the count by it |
| Net.AppendChunk | net.c:189-215 | `*buflen` grows by the count, the buffer is reallocated to it, and its string gains the chunk up to its first NUL |
| Net.Realloc | net.c:213 | the new buffer has the requested size, starts with the old bytes, and holds the same string |
| Navigation.NextToken | main.c:187 | a token is non-empty, contains no space and is a prefix of the text after the leading spaces |
| Navigation.NoTokenOnlyDelims | main.c:202-209 | strtok gives NULL exactly when only spaces are left |
| Navigation.TokenRest | main.c:202 | the next strtok call continues from a strictly shorter tail of the text |
| Navigation.TokenNulFree | main.c:205 | the token and the rest of a C string are C strings |
| Navigation.TokenOfWord | main.c:187 | a word followed by a space or by the end is itself the token, and the rest starts after that space |
| Navigation.CommandHasToken | main.c:186-189 | every submitted line has a first token and it starts with ':', so strcmp never receives NULL |
| Navigation.Submit | main.c:186-187 | the dispatch block on a submitted line: its first `strtok` token and the rest, handed to `Dispatch` |
| Navigation.Dispatch | main.c:189-210 | the four comparisons made in turn on the same token: `Scroll`, then ":open" |
| Navigation.Scroll | main.c:189-198 | ":quit" clears `isRunning`, ":down" adds one unless the frame reached the end, ":up" subtracts one while positive |
| Navigation.Open | main.c:200-210 | ":open" keeps the scroll position and the running flag, and can leave only the old message or "Invalid URL" |
| Navigation.ScrollNeverNegative | main.c:192-198 | a command never makes `start_line` negative, and can set no message other than "Invalid URL" |
| Navigation.QuitStops | main.c:189-190 | ":quit" clears `isRunning` and changes nothing else |
| Navigation.DownScrolls | main.c:192-194 | ":down" adds one to `start_line` exactly when the last frame did not reach the end |
| Navigation.UpScrolls | main.c:196-198 | ":up" subtracts one from `start_line` exactly when it is positive |
| Navigation.DownThenUp | main.c:192-198 | when the frame did not reach the end (both times), ":down" then ":up" returns to the same state; with the end reached ":down" does nothing and ":up" still scrolls back |
| Navigation.UnknownCommandIgnored | main.c:187-210 | any other token changes nothing and reports no error |
| Navigation.OpenSetsRequest | main.c:200-207 | ":open url" copies `url` to the request and sets `newRequest`, leaving `start_line` alone |
| Navigation.BareOpenIsInvalid | main.c:208-209 | ":open" with no URL sets "Invalid URL" only; the request and its flag are untouched |
| Navigation.Client.constructor | main.c:97-132 | `get_request` holds the request line of `argv[1]`, `server_name` its host and `server_port` its port or "1965"; the command line and message are empty, `start_line` is 0, a fetch is pending, and `buflen` is 1 |
| Navigation.Client.Fetch | main.c:147-159 | with a fetch pending, `get_request` becomes the request line of its re-parsed text, `server_name` and `server_port` the parsed host and port (or "1965"), the buffer the received text, `buflen` grows by the counts, and the flag clears; otherwise nothing changes |
| Navigation.Client.ShowFrame | main.c:161-178 | the screen is `Render` of the body from `start_line`; the status line is the error message if there is one and the command buffer otherwise; the message is then cleared |
| Navigation.Client.HandleKey | main.c:180-217 | the buffer edit is `Key`; a submitted line is dispatched as `Submit` says and the whole 100-byte buffer is zeroed; an unsubmitted key changes only the buffer |
| Navigation.Client.Interact | main.c:161-217 | one frame then one key: the screen and `reached_end` are `Render` of the body from the old `start_line`, and a submitted command is dispatched with that same `reached_end`, so ":down" scrolls only when the frame just shown did not reach the end |
| Navigation.Client.RunCommand | main.c:186-210 | the loop state after the dispatch block is `Submit` of the line on the old state |
| Navigation.Client.OpenUrl | main.c:200-210 | the ":open" branch leaves exactly the loop state `Open` describes, and `get_request` stays a C string |
| Navigation.Client.ClearCommand | main.c:212-214 | every one of the 100 command bytes is NUL afterwards |

## Left out

- The mbedtls set-up, connection, handshake, write and teardown wrappers (`init_session`, `init_rng`, `load_tofu_certs`, `open_conn`, `config`, `handshake`, `request`, `close_conn`, `free_session`, `my_debug`) are foreign library calls. What they report enters as parameters: the verify result, the peer certificate's bytes, whether its DER parses, and the sequence of read results.
- The file-system effects of `check_cert` (`access`, `fopen`, `fprintf`) are modelled as a map from path to contents. Failure to open the file is not modelled.
- Terminal control is not modelled: `setup_term`/`reset_term`, screen clearing, cursor positioning, `ioctl`, `getchar` and `fflush`. The window size and each key are parameters, and escape strings are abstract events.
- `parse_url`/`parsed_url_free` (url_parser.h is not part of this model) are an uninterpreted function parameter.
- test.c (a placeholder menu loop) is not part of this model.
- The link-table API declared in term.h and `LINK_LINE` are not modelled, because term.c never assigns them.
- The `check_cert` call in `main` is not modelled. It passes three arguments to a four-parameter function and runs before the handshake. `Client.Fetch` omits it and every other network step except `parse_input_url` and `read_response`.
- Printing of diagnostics (`printf`, `mbedtls_x509_crt_verify_info`, the "EOF" banner) is not modelled.
- `main`'s `exit(1)` when no argument is given is not modelled; the constructor takes the argument.
- TermInput.ParseInput: the source appends to the 100-byte buffer without a bound. The model requires that the new string and its terminator fit.
- Navigation.Client.HandleKey: requires the same bound on the command buffer.
- Request.SetupRequest: requires that ":" + port fits `char port[10]` and that the line fits `get_request` (1024 bytes). `sprintf`/`strcat` overflows are preconditions, not behaviour.
- Request.ParseInputUrl: requires that the host, port and request line fit `server_name` (255), `server_port` (10) and `get_request` (1024).
- Navigation.Client.constructor: requires that `argv[1]` fits `get_request`. The one-byte `malloc(1)` response buffer is modelled as holding NUL; its contents are undefined in C, and nothing reads them before the first fetch.
- Net.TrustStore.CheckCert: requires that the pin path fits `char buf[512]`.
- Net.ReadResponse: requires that a stop eventually comes. The source relies on the 10-second read timeout configured in `config`. It also requires each read to deliver 1 to 1023 bytes, as `mbedtls_ssl_read` with `len = 1023` does. The `int` overflow of `*buflen` and realloc failure are not modelled.
- Navigation.NextToken: strtok's NUL writes into `command` are not modelled. The token and the rest are returned as values; the buffer is zeroed right afterwards anyway.
- RenderProperties.ReachedEndExactly: the iff for `reached_end` is stated only for bodies whose lines need no hard wrap (`FitsFrom`). With wrapping the loop still stops exactly as `StepPosition` says, step by step.
- RenderProperties.RenderReachedEnd: the same restriction.
- RenderProperties.FenceLine: covers only the bare line "```". Other backtick-led lines are not described by a lemma of their own. An opening fence with alt text shows that text, as `FenceAltTextShown` proves. Only the leading backticks are counted, so "````" does not toggle, and a line like "`#a" is classified as a heading because the '#' raises the toggle class to HEADING. The model renders all of these as the code does.
- Line `start_line - 1` is written, because term.c:160 clips only lines below it, but its wrap character is not, because term.c:130 writes it only from `start_line` on. The model keeps this behaviour, and `HardWrapDropsCharAboveStart` states it.
- RenderProperties.BlockBacktickCounted: covers one backtick at a time. That the third backtick on a line closes the block follows by applying it three times; that is not stated as a lemma of its own.
- The unsigned `buflen` parameter of `print_text` and `strlen(buf)` are modelled by passing the C string itself.
- Refusing a connection on a pin mismatch is not modelled, because the code does not do it. A trust-on-first-use client is usually expected to refuse a connection whose certificate does not match its pin; this code only reports the mismatch, and writes a pin only when verification has failed. `check_cert` itself only tests whether the pin file exists; the comparison with the pinned certificates is left to verification, since `load_tofu_certs` (net.c:40-45) loads every pin into `cacert` at start-up and `config` (net.c:87) makes it the CA chain. The model follows the code, and takes the verify result as an input.

## Findings

| source | as written | input that shows it | evidently intended | confidence | as-written member | corrected member |
|---|---|---|---|---|---|---|
| main.c:48-50 | `query = malloc(strlen(url->query)+1)`, then `strcpy(query, "?")` and `strcat(query, url->query)` write strlen + 2 bytes | any URL with a query, e.g. query "a": 2 bytes allocated, "?a" and its NUL are 3 | `malloc(strlen(url->query)+2)`, room for the '?', the query and the terminator | high (not executed) | Request.QueryAllocationOneShort | Request.QueryBufferSize |

=== FILE: cstrings.dfy ===
/**
 * NUL-terminated character buffers, as the C client keeps its command line and
 * request line. A buffer is an `array<char>`; the string it holds is the prefix
 * before the first NUL. The helpers below are the C library calls the client uses
 * on such buffers (strlen, strcpy, strcat).
 */
module CStrings {
  const NUL: char := 0 as char

  /** strlen: the index of the first NUL, or the whole length when there is none. */
  function StrLen(s: seq<char>): (n: nat)
    ensures n <= |s|
    ensures forall i :: 0 <= i < n ==> s[i] != NUL
    ensures n < |s| ==> s[n] == NUL
  {
    if s == [] || s[0] == NUL then 0 else 1 + StrLen(s[1..])
  }

  /** The C string a buffer holds. */
  function CStr(s: seq<char>): (r: string)
    ensures |r| <= |s| && NUL !in r
    ensures r == s[..|r|]
  {
    s[..StrLen(s)]
  }

  /** The buffer holds a terminated string. */
  predicate Terminated(s: seq<char>) {
    StrLen(s) < |s|
  }

  /** The buffer holds a terminated string and every byte after it is NUL. */
  predicate ZeroFilled(s: seq<char>) {
    Terminated(s) && forall i :: StrLen(s) <= i < |s| ==> s[i] == NUL
  }

  /** A buffer made of `t`, a NUL, and anything after: it holds exactly `t`. */
  lemma {:induction false} StrLenOfTerminated(t: string, tail: seq<char>)
    requires NUL !in t
    ensures StrLen(t + [NUL] + tail) == |t|
    ensures CStr(t + [NUL] + tail) == t
  {
    var s := t + [NUL] + tail;
    if t == [] {
      assert s[0] == NUL;
    } else {
      assert s[1..] == t[1..] + [NUL] + tail;
      StrLenOfTerminated(t[1..], tail);
    }
  }

  /** Terminators after the end of a byte string do not change the C string it reads as. */
  lemma {:induction false} CStrOfPadded(s: seq<char>, pad: seq<char>)
    requires |pad| > 0 && pad[0] == NUL
    ensures CStr(s + pad) == CStr(s)
  {
    if s == [] {
      assert (s + pad)[0] == NUL;
    } else if s[0] != NUL {
      assert (s + pad)[1..] == s[1..] + pad;
      CStrOfPadded(s[1..], pad);
    }
  }

  /** Bytes after a terminated string do not change it. */
  lemma {:induction false} StrLenOfExtension(s: seq<char>, more: seq<char>)
    requires Terminated(s)
    ensures StrLen(s + more) == StrLen(s) && CStr(s + more) == CStr(s)
  {
    if s[0] != NUL {
      assert (s + more)[1..] == s[1..] + more;
      StrLenOfExtension(s[1..], more);
    }
  }

  /** Storing a NUL at or after the terminator leaves the string as it was (`buf[*buflen-1] = 0`). */
  lemma NulAfterEndKeepsString(a: array<char>, k: int)
    requires Terminated(a[..]) && StrLen(a[..]) <= k < a.Length
    ensures Terminated(a[..][k := NUL]) && CStr(a[..][k := NUL]) == CStr(a[..])
  {
    var n := StrLen(a[..]);
    var s := a[..][k := NUL];
    assert a[..] == CStr(a[..]) + [NUL] + a[n + 1..];
    StrLenOfTerminated(CStr(a[..]), a[n + 1..]);
    assert s == CStr(a[..]) + [NUL] + s[n + 1..];
    StrLenOfTerminated(CStr(a[..]), s[n + 1..]);
  }

  /** strcpy(dst, src): `src` and its terminator overwrite the start of `dst`. */
  method StrCpy(dst: array<char>, src: string)
    requires NUL !in src && |src| < dst.Length
    modifies dst
    ensures dst[..] == src + [NUL] + old(dst[|src| + 1..])
    ensures Terminated(dst[..]) && CStr(dst[..]) == src
  {
    forall i | 0 <= i < |src| {
      dst[i] := src[i];
    }
    dst[|src|] := NUL;
    assert dst[..] == src + [NUL] + old(dst[|src| + 1..]);
    StrLenOfTerminated(src, old(dst[|src| + 1..]));
  }

  /** strcat(dst, src): `src` and a terminator are written where the string in `dst` ends. */
  method StrCat(dst: array<char>, src: string)
    requires Terminated(dst[..]) && NUL !in src
    requires StrLen(dst[..]) + |src| < dst.Length
    modifies dst
    ensures dst[..] == old(CStr(dst[..])) + src + [NUL] + old(dst[StrLen(dst[..]) + |src| + 1..])
    ensures Terminated(dst[..]) && CStr(dst[..]) == old(CStr(dst[..])) + src
    ensures old(ZeroFilled(dst[..])) ==> ZeroFilled(dst[..])
  {
    var n := StrLen(dst[..]);
    ghost var before := dst[..];
    forall i | n <= i < n + |src| {
      dst[i] := src[i - n];
    }
    dst[n + |src|] := NUL;
    assert dst[..] == before[..n] + src + [NUL] + before[n + |src| + 1..];
    StrLenOfTerminated(before[..n] + src, before[n + |src| + 1..]);
    assert before[..n] + src + [NUL] + before[n + |src| + 1..] == (before[..n] + src) + [NUL] + before[n + |src| + 1..];
  }
}

=== FILE: navigation.dfy ===
/**
 * The main loop of main.c: fetch when a new request is pending, draw a frame
 * and the status line, read one key, and on a submitted command dispatch it
 * (":quit", ":down", ":up", ":open <url>").
 *
 * `Submit` is the command step as a function of the loop state; `Client`
 * holds the loop's variables and buffers and performs each phase in place.
 */
module Navigation {
  import opened Wrappers
  import opened CStrings
  import opened TermInput
  import opened TermRender
  import opened Request
  import opened Net

  // ---------------------------------------------------------------------------
  // strtok with the delimiter " "

  /** The text with its leading delimiters skipped. */
  function SkipDelims(s: string): (r: string)
    ensures |r| <= |s| && r == s[|s| - |r|..]
    ensures r == [] || r[0] != ' '
    ensures forall i :: 0 <= i < |s| - |r| ==> s[i] == ' '
  {
    if s != [] && s[0] == ' ' then SkipDelims(s[1..]) else s
  }

  /**
   * One call of strtok: the next token, and the text after the delimiter that
   * ended it (where the following `strtok(NULL, " ")` starts); none when only
   * delimiters are left.
   */
  function NextToken(s: string): (r: Option<(string, string)>)
    ensures r.Some? ==> r.value.0 != [] && ' ' !in r.value.0
    ensures r.Some? ==> r.value.0 <= SkipDelims(s)
  {
    var t := SkipDelims(s);
    if t == [] then None
    else
      match IndexOf(t, ' ')
      case None => Some((t, []))
      case Some(k) => Some((t[..k], t[k + 1..]))
  }

  /** strtok returns NULL exactly when only delimiters are left. */
  lemma NoTokenOnlyDelims(s: string)
    ensures NextToken(s).None? <==> forall i :: 0 <= i < |s| ==> s[i] == ' '
  {
    var t := SkipDelims(s);
    if t != [] {
      assert s[|s| - |t|] == t[0] != ' ';
    }
  }

  /** The next call starts inside the text: what is left is a strictly shorter tail of it. */
  lemma TokenRest(s: string)
    requires NextToken(s).Some?
    ensures |NextToken(s).value.1| < |s|
    ensures NextToken(s).value.1 == s[|s| - |NextToken(s).value.1|..]
  {
    var t := SkipDelims(s);
    var m := |s| - |t|;
    assert t == s[m..];
    var idx := IndexOf(t, ' ');
    if idx.Some? {
      var k := idx.value;
      assert NextToken(s).value.1 == t[k + 1..] == s[m + k + 1..];
    } else {
      assert NextToken(s).value.1 == [];
    }
  }

  /** The token of a C string, and what is left after it, are C strings. */
  lemma TokenNulFree(s: string)
    requires NUL !in s && NextToken(s).Some?
    ensures NUL !in NextToken(s).value.0 && NUL !in NextToken(s).value.1
  {
    var tok, t, rest := NextToken(s).value.0, SkipDelims(s), NextToken(s).value.1;
    forall i | 0 <= i < |tok|
      ensures tok[i] != NUL
    {
      assert tok[i] == t[i] == s[|s| - |t| + i];
    }
    TokenRest(s);
    forall i | 0 <= i < |rest|
      ensures rest[i] != NUL
    {
      assert rest[i] == s[|s| - |rest| + i];
    }
  }

  /** A word without delimiters, then a delimiter or the end: the word is the token. */
  lemma TokenOfWord(w: string, rest: string)
    requires w != [] && w[0] != ' ' && ' ' !in w
    requires rest == [] || rest[0] == ' '
    ensures NextToken(w + rest) == Some((w, if rest == [] then [] else rest[1..]))
  {
    assert SkipDelims(w + rest) == w + rest;
    if rest == [] {
      assert w + rest == w;
    } else {
      IndexOfAfter(w, ' ', rest[1..]);
      assert w + rest == w + [' '] + rest[1..];
      assert (w + [' '] + rest[1..])[..|w|] == w;
    }
  }

  /** Every submitted command line has a first token, and it starts with ':' (so strcmp never sees NULL). */
  lemma CommandHasToken(command: string)
    requires CommandMode(command)
    ensures NextToken(command).Some? && NextToken(command).value.0[0] == ':'
  {
    assert SkipDelims(command) == command;
    assert command[0] != ' ';
  }

  // ---------------------------------------------------------------------------
  // The command step

  /** The loop variables a command can change: `start_line`, `isRunning`, `newRequest`, `get_request`, `error_msg`. */
  datatype Nav = Nav(startLine: int, isRunning: bool, newRequest: bool, request: string, errorMsg: string)

  const InvalidUrl: string := "Invalid URL"

  /**
   * The dispatch block on the submitted line: `strtok` takes its first token
   * and `Dispatch` compares it with each command.
   */
  function Submit(n: Nav, command: string, reachedEnd: bool): Nav
    requires NextToken(command).Some?
  {
    var (token, rest) := NextToken(command).value;
    Dispatch(n, token, rest, reachedEnd)
  }

  /**
   * The comparisons of the dispatch block, made in turn on the same token:
   * ":down" scrolls only when the last frame did not reach the end, ":up" only
   * while `start_line` is positive, and ":open" takes the next token of `rest`
   * as the new request or reports "Invalid URL".
   */
  function Dispatch(n: Nav, token: string, rest: string, reachedEnd: bool): Nav {
    var n3 := Scroll(n, token, reachedEnd);
    if token == ":open" then Open(n3, rest) else n3
  }

  /** The ":quit", ":down" and ":up" comparisons. */
  function Scroll(n: Nav, token: string, reachedEnd: bool): Nav {
    var n1 := if token == ":quit" then n.(isRunning := false) else n;
    var n2 := if token == ":down" && !reachedEnd then n1.(startLine := n1.startLine + 1) else n1;
    if token == ":up" && n2.startLine > 0 then n2.(startLine := n2.startLine - 1) else n2
  }

  /** ":open" with the text after it: the next token becomes the pending request, or "Invalid URL" is reported. */
  function Open(n: Nav, rest: string): (r: Nav)
    ensures r.startLine == n.startLine && r.isRunning == n.isRunning
    ensures r.errorMsg in {n.errorMsg, InvalidUrl}
  {
    match NextToken(rest)
    case Some((url, _)) => n.(request := url, newRequest := true)
    case None => n.(errorMsg := InvalidUrl)
  }

  /** `start_line` never goes below zero, and the only message a command can leave is "Invalid URL". */
  lemma ScrollNeverNegative(n: Nav, token: string, rest: string, reachedEnd: bool)
    requires n.startLine >= 0
    ensures Dispatch(n, token, rest, reachedEnd).startLine >= 0
    ensures Dispatch(n, token, rest, reachedEnd).errorMsg in {n.errorMsg, InvalidUrl}
  {
    var n3 := Scroll(n, token, reachedEnd);
    assert n3.startLine >= 0 && n3.errorMsg == n.errorMsg;
  }

  /** ":quit" stops the loop and changes nothing else. */
  lemma QuitStops(n: Nav, rest: string, reachedEnd: bool)
    ensures Dispatch(n, ":quit", rest, reachedEnd) == n.(isRunning := false)
  {
  }

  /** ":down" scrolls one line exactly when the frame did not reach the end of the body. */
  lemma DownScrolls(n: Nav, rest: string, reachedEnd: bool)
    ensures Dispatch(n, ":down", rest, reachedEnd) == if reachedEnd then n else n.(startLine := n.startLine + 1)
  {
  }

  /** ":up" scrolls back one line, and does nothing at the top. */
  lemma UpScrolls(n: Nav, rest: string, reachedEnd: bool)
    ensures Dispatch(n, ":up", rest, reachedEnd) == if n.startLine > 0 then n.(startLine := n.startLine - 1) else n
  {
  }

  /**
   * Scrolling down and then up returns to the same frame while the end is not
   * shown; once it is, ":down" does nothing and ":up" still scrolls back.
   */
  lemma DownThenUp(n: Nav, rest: string, rest': string)
    requires n.startLine >= 0
    ensures Dispatch(Dispatch(n, ":down", rest, false), ":up", rest', false) == n
    ensures Dispatch(Dispatch(n, ":down", rest, true), ":up", rest', true) ==
      if n.startLine > 0 then n.(startLine := n.startLine - 1) else n
  {
    DownScrolls(n, rest, false);
    UpScrolls(n.(startLine := n.startLine + 1), rest', false);
    DownScrolls(n, rest, true);
    UpScrolls(n, rest', true);
  }

  /** A token that is none of the four commands changes nothing and reports nothing. */
  lemma UnknownCommandIgnored(n: Nav, token: string, rest: string, reachedEnd: bool)
    requires token !in {":quit", ":down", ":up", ":open"}
    ensures Dispatch(n, token, rest, reachedEnd) == n
  {
  }

  /** ":open <url>" makes `url` the pending request; the scroll position is kept. */
  lemma OpenSetsRequest(n: Nav, url: string, reachedEnd: bool)
    requires url != [] && url[0] != ' ' && ' ' !in url
    ensures NextToken(":open " + url) == Some((":open", url))
    ensures Submit(n, ":open " + url, reachedEnd) == n.(request := url, newRequest := true)
  {
    TokenOfWord(":open", " " + url);
    assert ":open " + url == ":open" + (" " + url);
    assert (" " + url)[1..] == url;
    TokenOfWord(url, "");
    assert url + "" == url;
    assert NextToken(url) == Some((url, []));
  }

  /** ":open" without a URL only reports "Invalid URL"; the request and its flag are untouched. */
  lemma BareOpenIsInvalid(n: Nav, spaces: nat, reachedEnd: bool)
    ensures NextToken(":open" + seq(spaces, _ => ' ')).Some?
    ensures Submit(n, ":open" + seq(spaces, _ => ' '), reachedEnd) == n.(errorMsg := InvalidUrl)
  {
    var pad := seq(spaces, _ => ' ');
    TokenOfWord(":open", pad);
    if spaces > 0 {
      NoTokenOnlyDelims(pad[1..]);
    } else {
      NoTokenOnlyDelims([]);
    }
  }

  // ---------------------------------------------------------------------------
  // The loop state

  /** `char error_msg[100]`. */
  const ErrorSize: nat := 100

  /** The variables and buffers of `main` that outlive one pass of the loop. */
  class Client {
    const command: array<char>
    const getRequest: array<char>
    const serverName: array<char>
    const serverPort: array<char>
    var buf: array<char>
    var buflen: int
    var errorMsg: string
    var startLine: int
    var isRunning: bool
    var newRequest: bool

    predicate Valid()
      reads this, command, getRequest, buf
    {
      && command.Length == CommandSize && getRequest.Length == RequestSize
      && serverName.Length == ServerNameSize && serverPort.Length == ServerPortSize
      && command != getRequest && command != serverName && command != serverPort && command != buf
      && getRequest != serverName && getRequest != serverPort && getRequest != buf
      && serverName != serverPort && serverName != buf && serverPort != buf
      && ZeroFilled(command[..]) && Reachable(CStr(command[..]))
      && Terminated(getRequest[..])
      && buf.Length == buflen && buflen >= 1 && Terminated(buf[..])
      && startLine >= 0
      && |errorMsg| < ErrorSize && NUL !in errorMsg
    }

    /** The part of the state the command step works on. */
    function NavState(): Nav
      reads this, getRequest
    {
      Nav(startLine, isRunning, newRequest, CStr(getRequest[..]), errorMsg)
    }

    /**
     * The start of `main`: `argv[1]` is copied into `get_request` and parsed
     * once; the loop starts at the top of the page with a fetch pending, an
     * empty command line and a one-byte response buffer.
     */
    constructor (arg: string, parseUrl: string -> Url)
      requires NUL !in arg && |arg| < RequestSize
      requires !Contains(arg, "://") ==> |arg| + 3 < RequestSize
      requires FitsBuffers(ParsedUrl(arg, parseUrl), RequestSize, ServerNameSize, ServerPortSize)
      ensures Valid()
      ensures CStr(getRequest[..]) == RequestLine(ParsedUrl(arg, parseUrl))
      ensures CStr(serverName[..]) == ParsedUrl(arg, parseUrl).host
      ensures CStr(serverPort[..]) == PortOf(ParsedUrl(arg, parseUrl))
      ensures CStr(command[..]) == [] && errorMsg == [] && buflen == 1
      ensures startLine == 0 && isRunning && newRequest
    {
      command := new char[CommandSize](_ => NUL);
      getRequest := new char[RequestSize];
      serverName := new char[ServerNameSize];
      serverPort := new char[ServerPortSize];
      buf := new char[1](_ => NUL);
      buflen := 1;
      errorMsg := [];
      startLine := 0;
      isRunning := true;
      newRequest := true;
      new;
      StrLenOfTerminated([], command[1..]);
      assert command[..] == [] + [NUL] + command[1..];
      StrLenOfTerminated([], []);
      assert buf[..] == [] + [NUL] + [];
      StrCpy(getRequest, arg);
      ParseInputUrl(getRequest, serverName, serverPort, parseUrl);
    }

    /**
     * Fetching: when a request is pending, it is parsed again,
     * the response read into `buf` (growing `buflen`), and the flag cleared.
     * The connection and TLS steps between are not part of this model.
     */
    method Fetch(parseUrl: string -> Url, results: seq<ReadResult>)
      requires Valid()
      requires newRequest && !Contains(CStr(getRequest[..]), "://") ==> StrLen(getRequest[..]) + 3 < RequestSize
      requires newRequest ==> FitsBuffers(ParsedUrl(CStr(getRequest[..]), parseUrl), RequestSize, ServerNameSize, ServerPortSize)
      requires newRequest ==> (forall i :: 0 <= i < |results| ==> ValidRead(results[i])) && HasStop(results)
      modifies this, getRequest, serverName, serverPort, buf
      ensures Valid() && !newRequest
      ensures old(newRequest) ==>
        && CStr(getRequest[..]) == RequestLine(ParsedUrl(old(CStr(getRequest[..])), parseUrl))
        && CStr(serverName[..]) == ParsedUrl(old(CStr(getRequest[..])), parseUrl).host
        && CStr(serverPort[..]) == PortOf(ParsedUrl(old(CStr(getRequest[..])), parseUrl))
        && CStr(buf[..]) == Received(results) && buflen == old(buflen) + Added(results)
      ensures !old(newRequest) ==> getRequest[..] == old(getRequest[..]) && buf == old(buf) && buf[..] == old(buf[..]) && buflen == old(buflen)
      ensures !old(newRequest) ==> serverName[..] == old(serverName[..]) && serverPort[..] == old(serverPort[..])
      ensures command[..] == old(command[..]) && errorMsg == old(errorMsg)
      ensures startLine == old(startLine) && isRunning == old(isRunning)
    {
      if newRequest {
        ParseInputUrl(getRequest, serverName, serverPort, parseUrl);
        buf, buflen := ReadResponse(buf, buflen, results);
        newRequest := false;
      }
    }

    /**
     * One frame: the body is rendered from `start_line`, then the status line
     * shows the pending error message if there is one and the command buffer
     * otherwise, and the error message is cleared.
     */
    method ShowFrame(cols: nat, rows: nat) returns (reachedEnd: bool, screen: seq<Event>, status: string)
      requires Valid()
      modifies this
      ensures Valid()
      ensures screen == Render(CStr(buf[..]), View(cols, rows, startLine)).out
      ensures reachedEnd == Render(CStr(buf[..]), View(cols, rows, startLine)).reachedEnd
      ensures status == if old(errorMsg) != [] then old(errorMsg) else CStr(command[..])
      ensures errorMsg == []
      ensures buf == old(buf) && buflen == old(buflen) && startLine == old(startLine)
      ensures isRunning == old(isRunning) && newRequest == old(newRequest)
    {
      reachedEnd, screen := PrintText(CStr(buf[..]), View(cols, rows, startLine));
      if errorMsg != [] {
        status := errorMsg;
      } else {
        status := CStr(command[..]);
      }
      errorMsg := [];
    }

    /**
     * One key: parse_input edits the command buffer; when it submits, the
     * command is dispatched and the whole buffer is zeroed.
     */
    method HandleKey(input: char, reachedEnd: bool) returns (submitted: bool)
      requires Valid()
      requires |Key(CStr(command[..]), input).command| < CommandSize
      modifies this, command, getRequest
      ensures Valid()
      ensures submitted == Key(old(CStr(command[..])), input).submit
      ensures submitted ==>
        && NavState() == Submit(old(NavState()), Key(old(CStr(command[..])), input).command, reachedEnd)
        && forall i :: 0 <= i < CommandSize ==> command[i] == NUL
      ensures !submitted ==> NavState() == old(NavState()) && CStr(command[..]) == Key(old(CStr(command[..])), input).command
      ensures buf == old(buf) && buflen == old(buflen)
    {
      ghost var nav := NavState();
      ghost var k := Key(CStr(command[..]), input);
      KeyKeepsReachable(CStr(command[..]), input);
      SubmittedIsCommandLine(CStr(command[..]), input);
      var r := ParseInput(input, command);
      assert NavState() == nav && CStr(command[..]) == k.command;
      submitted := r == 1;
      if r == 1 {
        var line := CStr(command[..]);
        CommandHasToken(line);
        ghost var (token, rest) := NextToken(line).value;
        ScrollNeverNegative(nav, token, rest, reachedEnd);
        RunCommand(line, reachedEnd);
        assert NavState() == Submit(nav, k.command, reachedEnd);
        assert startLine >= 0 && |errorMsg| < ErrorSize && NUL !in errorMsg;
        ClearCommand();
        assert NavState() == Submit(nav, k.command, reachedEnd);
      }
    }

    /**
     * The loop after the fetch: one frame is shown, then one key is read, and
     * a submitted command sees the `reached_end` of that same frame, so ":down"
     * scrolls only when the frame just shown did not reach the end of the body.
     */
    method Interact(cols: nat, rows: nat, input: char) returns (reachedEnd: bool, screen: seq<Event>, status: string, submitted: bool)
      requires Valid()
      requires |Key(CStr(command[..]), input).command| < CommandSize
      modifies this, command, getRequest
      ensures Valid()
      ensures screen == Render(old(CStr(buf[..])), View(cols, rows, old(startLine))).out
      ensures reachedEnd == Render(old(CStr(buf[..])), View(cols, rows, old(startLine))).reachedEnd
      ensures status == if old(errorMsg) != [] then old(errorMsg) else old(CStr(command[..]))
      ensures submitted == Key(old(CStr(command[..])), input).submit
      ensures submitted ==>
        && NavState() == Submit(old(NavState()).(errorMsg := []), Key(old(CStr(command[..])), input).command, reachedEnd)
        && forall i :: 0 <= i < CommandSize ==> command[i] == NUL
      ensures !submitted ==>
        && NavState() == old(NavState()).(errorMsg := [])
        && CStr(command[..]) == Key(old(CStr(command[..])), input).command
      ensures buf == old(buf) && buflen == old(buflen)
    {
      reachedEnd, screen, status := ShowFrame(cols, rows);
      submitted := HandleKey(input, reachedEnd);
    }

    /** The dispatch block of the loop on the submitted line; `error_msg` is empty here, cleared by the frame before. */
    method RunCommand(line: string, reachedEnd: bool)
      requires getRequest.Length == RequestSize && Terminated(getRequest[..])
      requires NextToken(line).Some? && NUL !in line && |line| < CommandSize
      modifies this, getRequest
      ensures NavState() == Submit(old(NavState()), line, reachedEnd)
      ensures Terminated(getRequest[..])
      ensures buf == old(buf) && buflen == old(buflen)
    {
      ghost var n := NavState();
      var (token, rest) := NextToken(line).value;
      TokenRest(line);
      TokenNulFree(line);
      if token == ":quit" {
        isRunning := false;
      }
      assert NavState() == (if token == ":quit" then n.(isRunning := false) else n);
      if token == ":down" {
        if !reachedEnd {
          startLine := startLine + 1;
        }
      }
      if token == ":up" {
        if startLine > 0 {
          startLine := startLine - 1;
        }
      }
      assert NavState() == Scroll(n, token, reachedEnd);
      if token == ":open" {
        OpenUrl(rest);
      }
    }

    /** The ":open" branch: `strtok(NULL, " ")`, then strcpy into `get_request` or the error message. */
    method OpenUrl(rest: string)
      requires getRequest.Length == RequestSize && Terminated(getRequest[..])
      requires NUL !in rest && |rest| < CommandSize
      modifies this, getRequest
      ensures NavState() == Open(old(NavState()), rest)
      ensures Terminated(getRequest[..])
      ensures buf == old(buf) && buflen == old(buflen)
    {
      var next := NextToken(rest);
      if next.Some? {
        TokenNulFree(rest);
        StrCpy(getRequest, next.value.0);
        newRequest := true;
      } else {
        errorMsg := InvalidUrl;
      }
    }

    /** Clearing the command line after a dispatch: all 100 bytes of the buffer become NUL. */
    method ClearCommand()
      requires command.Length == CommandSize
      modifies command
      ensures forall i :: 0 <= i < CommandSize ==> command[i] == NUL
      ensures ZeroFilled(command[..]) && CStr(command[..]) == []
    {
      for i := 0 to command.Length
        invariant forall j :: 0 <= j < i ==> command[j] == NUL
      {
        command[i] := NUL;
      }
      assert command[..] == [] + [NUL] + command[1..];
      StrLenOfTerminated([], command[1..]);
    }
  }
}

=== FILE: net.dfy ===
/**
 * The two decisions net.c makes on top of mbedtls: the trust-on-first-use
 * pin in `check_cert` and the accumulation of the response in
 * `read_response`. What mbedtls reports (the verify result, the peer's
 * certificate, whether its DER parses, the results of `mbedtls_ssl_read`)
 * comes in as parameters; the pin directory is a map from file path to
 * contents.
 */
module Net {
  import opened Wrappers
  import opened CStrings

  // ---------------------------------------------------------------------------
  // check_cert

  newtype uint32 = x: int | 0 <= x < 0x1_0000_0000

  /** `return ret;` of a `uint32_t` from a function returning `int`: values from 2^31 up wrap to negative. */
  function ToCInt(x: uint32): (r: int)
    ensures -0x8000_0000 <= r < 0x8000_0000
    ensures r % 0x1_0000_0000 == x as int
  {
    if x < 0x8000_0000 then x as int else x as int - 0x1_0000_0000
  }

  /** Only a zero verify result reads as zero after the conversion. */
  lemma ToCIntZero(x: uint32)
    ensures ToCInt(x) == 0 <==> x == 0
  {
  }

  /** `char buf[512]` that holds the pin file's path. */
  const PathBufferSize: nat := 512

  /** The pin file of a host: `certs_path/server_name.crt`. */
  function PinPath(certsPath: string, serverName: string): (p: string)
    ensures |p| == |certsPath| + |serverName| + 5
  {
    certsPath + "/" + serverName + ".crt"
  }

  /** Within one certificate directory, distinct hosts have distinct pin files. */
  lemma PinPathInjective(certsPath: string, a: string, b: string)
    requires PinPath(certsPath, a) == PinPath(certsPath, b)
    ensures a == b
  {
    var pa, pb := PinPath(certsPath, a), PinPath(certsPath, b);
    assert a == pa[|certsPath| + 1..|pa| - 4];
    assert b == pb[|certsPath| + 1..|pb| - 4];
  }

  /** What check_cert found. */
  datatype PinDecision =
    | Verified  // the chain verified: nothing is done
    | Mismatch  // it did not, and the host is pinned already: reported, not repinned
    | PinNew    // it did not, and the host has no pin: the peer certificate becomes its pin

  /** The pin directory and the trusted chain `cacert` (the DER of each certificate added at run time). */
  datatype TrustState = TrustState(pins: map<string, seq<bv8>>, chain: seq<seq<bv8>>)

  /** One connection as check_cert sees it. */
  datatype Connection = Connection(serverName: string, verifyResult: uint32, peer: seq<bv8>, derParses: bool)

  function Decide(s: TrustState, certsPath: string, c: Connection): PinDecision {
    if c.verifyResult == 0 then Verified
    else if PinPath(certsPath, c.serverName) in s.pins then Mismatch
    else PinNew
  }

  /** The trust state after check_cert on connection `c`. */
  function AfterCheck(s: TrustState, certsPath: string, c: Connection): (t: TrustState)
    ensures s.pins.Keys <= t.pins.Keys
    ensures forall p :: p in s.pins ==> t.pins[p] == s.pins[p]
    ensures Decide(s, certsPath, c) != PinNew ==> t == s
  {
    match Decide(s, certsPath, c)
    case Verified => s
    case Mismatch => s
    case PinNew =>
      TrustState(s.pins[PinPath(certsPath, c.serverName) := c.peer],
                 if c.derParses then s.chain + [c.peer] else s.chain)
  }

  /**
   * A failed verification for a host without a pin writes the peer's raw bytes
   * as its pin and adds the certificate to the chain when it parses; the chain
   * never loses an entry.
   */
  lemma FirstFailurePins(s: TrustState, certsPath: string, c: Connection)
    requires c.verifyResult != 0 && PinPath(certsPath, c.serverName) !in s.pins
    ensures AfterCheck(s, certsPath, c).pins == s.pins[PinPath(certsPath, c.serverName) := c.peer]
    ensures AfterCheck(s, certsPath, c).chain == s.chain + (if c.derParses then [c.peer] else [])
  {
  }

  /** The trust state after a sequence of connections. */
  function Session(s: TrustState, certsPath: string, conns: seq<Connection>): TrustState
    decreases |conns|
  {
    if conns == [] then s else Session(AfterCheck(s, certsPath, conns[0]), certsPath, conns[1..])
  }

  /** Once written, a pin never changes, whatever later connections present. */
  lemma {:induction false} PinsNeverChange(s: TrustState, certsPath: string, conns: seq<Connection>, path: string)
    requires path in s.pins
    ensures path in Session(s, certsPath, conns).pins
    ensures Session(s, certsPath, conns).pins[path] == s.pins[path]
    decreases |conns|
  {
    if conns != [] {
      PinsNeverChange(AfterCheck(s, certsPath, conns[0]), certsPath, conns[1..], path);
    }
  }

  /** The peer certificate of the first connection to fail verification whose host has pin file `path`. */
  function FirstFailureFor(certsPath: string, path: string, conns: seq<Connection>): (r: Option<seq<bv8>>)
    decreases |conns|
  {
    if conns == [] then None
    else if conns[0].verifyResult != 0 && PinPath(certsPath, conns[0].serverName) == path then Some(conns[0].peer)
    else FirstFailureFor(certsPath, path, conns[1..])
  }

  /**
   * Trust on first use: a host without a pin ends up pinned exactly when some
   * connection to it failed verification, and its pin is the certificate of the
   * first such connection.
   */
  lemma {:induction false} PinIsFirstFailure(s: TrustState, certsPath: string, conns: seq<Connection>, path: string)
    requires path !in s.pins
    ensures path in Session(s, certsPath, conns).pins <==> FirstFailureFor(certsPath, path, conns).Some?
    ensures path in Session(s, certsPath, conns).pins ==>
      Session(s, certsPath, conns).pins[path] == FirstFailureFor(certsPath, path, conns).value
    decreases |conns|
  {
    if conns != [] {
      var c := conns[0];
      var t := AfterCheck(s, certsPath, c);
      if c.verifyResult != 0 && PinPath(certsPath, c.serverName) == path {
        assert t.pins[path] == c.peer;
        PinsNeverChange(t, certsPath, conns[1..], path);
      } else {
        assert path !in t.pins;
        PinIsFirstFailure(t, certsPath, conns[1..], path);
      }
    }
  }

  /** The pin directory and the `cacert` chain that check_cert reads and extends. */
  class TrustStore {
    var pins: map<string, seq<bv8>>
    var chain: seq<seq<bv8>>

    constructor (pins: map<string, seq<bv8>>)
      ensures this.pins == pins && chain == []
    {
      this.pins := pins;
      chain := [];
    }

    function State(): TrustState
      reads this
    {
      TrustState(pins, chain)
    }

    /**
     * check_cert: when verification failed, an existing pin file is only
     * reported (`mismatch`); otherwise the file is created and the peer's raw
     * bytes written to it one at a time, and the certificate is parsed into the
     * chain. The verify result is returned either way; nothing here aborts the
     * connection.
     */
    method CheckCert(certsPath: string, c: Connection) returns (ret: int, mismatch: bool)
      requires |PinPath(certsPath, c.serverName)| < PathBufferSize
      modifies this
      ensures State() == AfterCheck(old(State()), certsPath, c)
      ensures mismatch <==> Decide(old(State()), certsPath, c) == Mismatch
      ensures ret == ToCInt(c.verifyResult)
    {
      ret := ToCInt(c.verifyResult);
      mismatch := false;
      if c.verifyResult != 0 {
        var path := PinPath(certsPath, c.serverName);
        if path in pins {
          mismatch := true;
        } else {
          pins := pins[path := []];
          for i := 0 to |c.peer|
            invariant pins == old(pins)[path := c.peer[..i]]
            invariant chain == old(chain)
          {
            assert c.peer[..i + 1] == c.peer[..i] + [c.peer[i]];
            pins := pins[path := pins[path] + [c.peer[i]]];
          }
          assert c.peer[..|c.peer|] == c.peer;
          if c.derParses {
            chain := chain + [c.peer];
          }
        }
      }
    }
  }

  // ---------------------------------------------------------------------------
  // read_response

  const WantRead: int := -0x6900
  const WantWrite: int := -0x6880
  const PeerCloseNotify: int := -0x7880
  /** `char tmp[1024]`, of which `sizeof(tmp) - 1` bytes are offered to each read. */
  const ChunkBufferSize: nat := 1024

  /** One result of mbedtls_ssl_read: a positive count with the bytes read, or a code that is zero or negative. */
  datatype ReadResult = Data(chunk: seq<char>) | Code(ret: int)

  predicate ValidRead(r: ReadResult) {
    match r
    case Data(chunk) => 0 < |chunk| < ChunkBufferSize
    case Code(ret) => ret <= 0
  }

  /** A result after which the loop asks again. */
  predicate Retry(r: ReadResult) {
    r.Code? && (r.ret == WantRead || r.ret == WantWrite)
  }

  /** A result that ends the loop: close-notify, another error, or a zero-length read (end of stream). */
  predicate Stop(r: ReadResult) {
    r.Code? && !Retry(r)
  }

  /** The text the loop appends for `results`: each chunk up to its first NUL, in order, up to the first stop. */
  function Received(results: seq<ReadResult>): string
    decreases |results|
  {
    if results == [] then []
    else match results[0]
      case Data(chunk) => CStr(chunk) + Received(results[1..])
      case Code(_) => if Retry(results[0]) then Received(results[1..]) else []
  }

  /** What `*buflen` grows by for `results`: the sum of the positive counts up to the first stop. */
  function Added(results: seq<ReadResult>): nat
    decreases |results|
  {
    if results == [] then 0
    else match results[0]
      case Data(chunk) => |chunk| + Added(results[1..])
      case Code(_) => if Retry(results[0]) then Added(results[1..]) else 0
  }

  /** The text received never outgrows the byte count, so the buffer sized by the count always has room. */
  lemma {:induction false} ReceivedWithinCount(results: seq<ReadResult>)
    ensures |Received(results)| <= Added(results)
    decreases |results|
  {
    if results != [] {
      ReceivedWithinCount(results[1..]);
    }
  }

  /** WANT_READ and WANT_WRITE are invisible: the loop simply asks again. */
  lemma {:induction false} RetriesAreTransparent(a: seq<ReadResult>, r: ReadResult, b: seq<ReadResult>)
    requires Retry(r)
    ensures Received(a + [r] + b) == Received(a + b)
    ensures Added(a + [r] + b) == Added(a + b)
    decreases |a|
  {
    if a == [] {
      assert (a + [r] + b)[1..] == b && a + b == b;
    } else {
      assert (a + [r] + b)[0] == a[0] && (a + [r] + b)[1..] == a[1..] + [r] + b;
      assert (a + b)[0] == a[0] && (a + b)[1..] == a[1..] + b;
      RetriesAreTransparent(a[1..], r, b);
    }
  }

  /** Nothing after the first stop is read: close-notify, an error or end of stream ends the response. */
  lemma {:induction false} NothingAfterStop(a: seq<ReadResult>, r: ReadResult, b: seq<ReadResult>)
    requires forall i :: 0 <= i < |a| ==> !Stop(a[i])
    requires Stop(r)
    ensures Received(a + [r] + b) == Received(a)
    ensures Added(a + [r] + b) == Added(a)
    decreases |a|
  {
    if a == [] {
      assert (a + [r] + b)[0] == r;
    } else {
      assert (a + [r] + b)[0] == a[0] && (a + [r] + b)[1..] == a[1..] + [r] + b;
      NothingAfterStop(a[1..], r, b);
    }
  }

  /** A chunk with a NUL byte contributes only the bytes before it. */
  lemma ChunkEndsAtNul(x: string, y: seq<char>, rest: seq<ReadResult>)
    requires NUL !in x
    ensures Received([Data(x + [NUL] + y)] + rest) == x + Received(rest)
  {
    StrLenOfTerminated(x, y);
    assert ([Data(x + [NUL] + y)] + rest)[1..] == rest;
  }

  predicate HasStop(results: seq<ReadResult>) {
    exists i :: 0 <= i < |results| && Stop(results[i])
  }

  /**
   * read_response: empties the response buffer, then results until a stop,
   * growing the buffer by each count (realloc) and appending the chunk up to
   * its first NUL (strcat). `buflen` is the caller's `*buflen`, which is never
   * reset, so it counts every byte read on the connection so far plus one.
   */
  method ReadResponse(buf: array<char>, buflen: int, results: seq<ReadResult>) returns (body: array<char>, newBuflen: int)
    requires buf.Length == buflen && buflen >= 1
    requires forall i :: 0 <= i < |results| ==> ValidRead(results[i])
    requires HasStop(results)
    modifies buf
    ensures body == buf || fresh(body)
    ensures newBuflen == buflen + Added(results)
    ensures body.Length == newBuflen
    ensures Terminated(body[..]) && CStr(body[..]) == Received(results)
  {
    body := buf;
    newBuflen := buflen;
    body[0] := NUL;
    StrLenOfTerminated([], body[1..]);
    assert body[..] == [] + [NUL] + body[1..];
    var i := 0;
    ghost var rest, got := results, [];
    while true
      invariant 0 <= i <= |results| && rest == results[i..] && HasStop(rest)
      invariant body == buf || fresh(body)
      invariant body.Length == newBuflen
      invariant Terminated(body[..]) && CStr(body[..]) == got
      invariant newBuflen + Added(rest) == buflen + Added(results)
      invariant got + Received(rest) == Received(results)
      decreases |rest|
    {
      assert rest[0] == results[i] && rest[1..] == results[i + 1..];
      ReadStep(got, rest);
      var stop;
      body, newBuflen, stop := TakeRead(body, newBuflen, results[i]);
      if stop {
        break;
      }
      StopStillAhead(rest);
      i, rest, got := i + 1, rest[1..], got + Piece(rest[0]);
    }
  }

  /** Past a result that does not stop the loop, a stop is still to come. */
  lemma StopStillAhead(results: seq<ReadResult>)
    requires HasStop(results) && !Stop(results[0])
    ensures HasStop(results[1..])
  {
    var k :| 0 <= k < |results| && Stop(results[k]);
    assert results[1..][k - 1] == results[k];
  }

  /** What one result appends to the response: the chunk up to its first NUL, or nothing. */
  function Piece(r: ReadResult): string {
    if r.Data? then CStr(r.chunk) else []
  }

  /** How much one result grows `*buflen` by: its count, or nothing. */
  function Count(r: ReadResult): nat {
    if r.Data? then |r.chunk| else 0
  }

  /** The accounting for the first of `rest`, after `got` was received: a stop adds nothing, anything else adds its piece. */
  lemma {:induction false} ReadStep(got: string, rest: seq<ReadResult>)
    requires rest != []
    ensures Stop(rest[0]) ==> got + Received(rest) == got && Added(rest) == 0
    ensures !Stop(rest[0]) ==> (got + Piece(rest[0])) + Received(rest[1..]) == got + Received(rest)
    ensures !Stop(rest[0]) ==> Count(rest[0]) + Added(rest[1..]) == Added(rest)
  {
    if Stop(rest[0]) {
      assert Received(rest) == [];
    } else {
      assert Received(rest) == Piece(rest[0]) + Received(rest[1..]);
    }
  }

  /**
   * One pass of the read loop for result `r`: WANT_READ and WANT_WRITE go round
   * again, close-notify, another negative code and zero stop the loop, and a
   * positive count appends the chunk.
   */
  method TakeRead(buf: array<char>, buflen: int, r: ReadResult) returns (body: array<char>, newBuflen: int, stop: bool)
    requires buf.Length == buflen && Terminated(buf[..]) && ValidRead(r)
    ensures stop <==> Stop(r)
    ensures body == buf || fresh(body)
    ensures body.Length == newBuflen && Terminated(body[..])
    ensures newBuflen == buflen + Count(r)
    ensures CStr(body[..]) == CStr(buf[..]) + Piece(r)
  {
    body, newBuflen, stop := buf, buflen, false;
    if r.Code? {
      var ret := r.ret;
      if ret == WantRead || ret == WantWrite {
        return;
      }
      stop := true;
      if ret == PeerCloseNotify {
        return;
      }
      if ret < 0 {
        return;
      }
      if ret == 0 {
        return;
      }
    }
    body, newBuflen := AppendChunk(buf, buflen, r.chunk);
  }

  /**
   * One successful read: the chunk lands in the zeroed `tmp`, `*buflen` grows by
   * the count, the buffer is reallocated to that size, `tmp` is appended up to
   * its first NUL, and the last byte is set to NUL.
   */
  method AppendChunk(buf: array<char>, buflen: int, chunk: seq<char>) returns (body: array<char>, newBuflen: int)
    requires buf.Length == buflen && Terminated(buf[..])
    requires |chunk| < ChunkBufferSize
    ensures fresh(body)
    ensures newBuflen == buflen + |chunk| && body.Length == newBuflen
    ensures Terminated(body[..]) && CStr(body[..]) == CStr(buf[..]) + CStr(chunk)
  {
    // memset(tmp, 0, sizeof(tmp)), then the read fills its first |chunk| bytes.
    var tmp := chunk + seq(ChunkBufferSize - |chunk|, _ => NUL);
    CStrOfPadded(chunk, tmp[|chunk|..]);
    var len := |chunk|;
    newBuflen := buflen + len;
    body := Realloc(buf, newBuflen);
    StrCat(body, CStr(tmp));
    NulAfterEndKeepsString(body, newBuflen - 1);
    body[newBuflen - 1] := NUL;
  }

  /** realloc: a longer buffer that starts with the old one's bytes, so it holds the same string. */
  method Realloc(a: array<char>, n: nat) returns (b: array<char>)
    requires n >= a.Length && Terminated(a[..])
    ensures fresh(b) && b.Length == n && b[..a.Length] == a[..]
    ensures Terminated(b[..]) && CStr(b[..]) == CStr(a[..])
  {
    ghost var before := a[..];
    b := new char[n];
    forall k | 0 <= k < a.Length {
      b[k] := a[k];
    }
    assert a[..] == before;
    assert b[..] == before + b[a.Length..];
    StrLenOfExtension(before, b[a.Length..]);
  }
}

=== FILE: render_properties.dfy ===
/**
 * What `print_text` guarantees, proved about the loop as `TermRender.Run`
 * describes it: the output is produced as a stream and never retracted, a
 * taller window only adds output, `reached_end` is false exactly when the
 * body has more lines than the window shows, heading levels saturate, list
 * and quote markers, preformatted fences and their parity, hard wrapping,
 * the elided leading space, and the silence of lines scrolled off the top.
 */
module RenderProperties {
  import opened TermRender

  // ---------------------------------------------------------------------------
  // Vocabulary

  /** `k` copies of `ch`. */
  function Repeat(ch: char, k: nat): (s: seq<char>)
    ensures |s| == k && forall i :: 0 <= i < k ==> s[i] == ch
  {
    if k == 0 then [] else [ch] + Repeat(ch, k - 1)
  }

  /** The number of '\n' characters in `s`. */
  function CountNewlines(s: seq<char>): nat {
    if s == [] then 0 else (if s[0] == '\n' then 1 else 0) + CountNewlines(s[1..])
  }

  /** `k` style resets, what a run of line breaks writes when nothing else is shown. */
  function Resets(k: nat): seq<Event> {
    if k == 0 then [] else [ResetStyle] + Resets(k - 1)
  }

  /** Each character written as itself. */
  function Puts(s: seq<char>): seq<Event> {
    if s == [] then [] else [Put(s[0])] + Puts(s[1..])
  }

  /** Each character written after the escape of line class `t`, as the loop re-emits it per character. */
  function Styled(t: LineType, s: seq<char>): seq<Event> {
    if s == [] then [] else StyleOf(t) + [Put(s[0])] + Styled(t, s[1..])
  }

  /**
   * No character of `s`, read from column `col`, reaches the wrap column: the
   * position count of the loop (tmpi) stays at most `cols - 1`, restarting after
   * each '\n'.
   */
  predicate FitsFrom(col: int, s: seq<char>, cols: int)
    decreases |s|
  {
    s == [] || (col + 1 <= cols - 1 && FitsFrom(if s[0] == '\n' then 0 else col + 1, s[1..], cols))
  }

  /** The cursor right after a line break: at line start, normal class, no backticks counted. */
  predicate Fresh(c: Cursor) {
    c.col == 0 && c.lineStart && c.lineType == NormalLine && c.ticks == 0
  }

  /** The cursor's line is one the window shows: not scrolled off the top and not below the window. */
  predicate Visible(c: Cursor, v: View) {
    v.startLine - 1 <= c.line && c.line - v.startLine <= v.rows - 2
  }

  /** The line class after `k` leading '#' on a line: HEADING, SUBHEADING, then SUBSUBHEADING for good. */
  function HeadingKind(k: nat): LineType
    requires k >= 1
  {
    if k == 1 then HeadingLine else if k == 2 then SubheadingLine else SubsubheadingLine
  }

  // ---------------------------------------------------------------------------
  // One step

  /**
   * The line bookkeeping of one step: the loop stops exactly when the cursor's
   * line is past the window; otherwise a '\n' or a wrap starts the next line and
   * any other character advances the column.
   */
  lemma StepPosition(c: Cursor, ch: char, v: View)
    ensures StepChar(c, ch, v).Halt? <==> c.line - v.startLine > v.rows - 2
    ensures StepChar(c, ch, v).Next? ==>
      var d := StepChar(c, ch, v).cursor;
      if ch == '\n' || c.col + 1 > v.cols - 1 then d.line == c.line + 1 && d.col == 0
      else d.line == c.line && d.col == c.col + 1
  {
  }

  /** A taller window changes one step only by not stopping where the shorter one stops. */
  lemma StepMoreRows(c: Cursor, ch: char, v: View, rows: nat)
    requires rows >= v.rows
    ensures StepChar(c, ch, v).Next? ==> StepChar(c, ch, v.(rows := rows)) == StepChar(c, ch, v)
    ensures StepChar(c, ch, v).Halt? ==> StepChar(c, ch, v).out <= StepChar(c, ch, v.(rows := rows)).out
  {
  }

  // ---------------------------------------------------------------------------
  // The whole loop

  /** The loop over `a + b` is the loop over `a`, then, if it did not stop, the loop over `b` from where it left off. */
  lemma {:induction false} RunAppend(c: Cursor, a: seq<char>, b: seq<char>, v: View)
    ensures Run(c, a + b, v) ==
      var ra := Run(c, a, v);
      if ra.reachedEnd then
        var rb := Run(ra.cursor, b, v);
        Rendering(rb.cursor, ra.out + rb.out, rb.reachedEnd)
      else ra
    decreases |a|
  {
    if a == [] {
      assert a + b == b;
    } else {
      assert (a + b)[0] == a[0] && (a + b)[1..] == a[1..] + b;
      match StepChar(c, a[0], v)
      case Halt(_) =>
      case Next(d, o) =>
        RunAppend(d, a[1..], b, v);
        var ra := Run(d, a[1..], v);
        if ra.reachedEnd {
          var rb := Run(ra.cursor, b, v);
          assert o + (ra.out + rb.out) == (o + ra.out) + rb.out;
        }
    }
  }

  /** Output is a stream: what the loop writes for a prefix of the body is never retracted by what follows. */
  lemma StreamingOutput(c: Cursor, a: seq<char>, b: seq<char>, v: View)
    ensures Run(c, a, v).out <= Run(c, a + b, v).out
    ensures !Run(c, a, v).reachedEnd ==> Run(c, a + b, v) == Run(c, a, v)
  {
    RunAppend(c, a, b, v);
  }

  /** A taller window shows the same beginning and perhaps more; once the end is reached, more rows change nothing. */
  lemma {:induction false} MoreRowsExtends(c: Cursor, buf: seq<char>, v: View, rows: nat)
    requires rows >= v.rows
    ensures Run(c, buf, v).out <= Run(c, buf, v.(rows := rows)).out
    ensures Run(c, buf, v).reachedEnd ==> Run(c, buf, v.(rows := rows)) == Run(c, buf, v)
    decreases |buf|
  {
    if buf != [] {
      StepMoreRows(c, buf[0], v, rows);
      match StepChar(c, buf[0], v)
      case Halt(o) =>
        match StepChar(c, buf[0], v.(rows := rows)) {
          case Halt(o') =>
          case Next(d', o') =>
            assert o <= o' + Run(d', buf[1..], v.(rows := rows)).out;
        }
      case Next(d, o) =>
        MoreRowsExtends(d, buf[1..], v, rows);
    }
  }

  /** A body with no more characters than the window has rows below the cursor always reaches its end. */
  lemma {:induction false} ShortBodyReachesEnd(c: Cursor, buf: seq<char>, v: View)
    requires c.line + |buf| <= v.startLine + v.rows - 1
    ensures Run(c, buf, v).reachedEnd
    decreases |buf|
  {
    if buf != [] {
      StepPosition(c, buf[0], v);
      ShortBodyReachesEnd(StepChar(c, buf[0], v).cursor, buf[1..], v);
    }
  }

  /** Counting the newlines of a prefix one character longer. */
  lemma CountNewlinesCons(x: char, s: seq<char>)
    ensures CountNewlines([x] + s) == (if x == '\n' then 1 else 0) + CountNewlines(s)
  {
    assert ([x] + s)[1..] == s;
  }

  /**
   * When no line has to be wrapped, `reached_end` is false exactly when the
   * body still has a character after the line that overflows the window:
   * the loop stops on the first character whose line number, counted from
   * `start_line`, exceeds `ws_row - 2`.
   */
  lemma {:induction false} ReachedEndExactly(c: Cursor, buf: seq<char>, v: View)
    requires FitsFrom(c.col, buf, v.cols)
    ensures Run(c, buf, v).reachedEnd <==>
      (buf == [] || c.line + CountNewlines(buf[..|buf| - 1]) - v.startLine <= v.rows - 2)
    ensures Run(c, buf, v).reachedEnd ==> Run(c, buf, v).cursor.line == c.line + CountNewlines(buf)
    decreases |buf|
  {
    if buf != [] {
      StepPosition(c, buf[0], v);
      match StepChar(c, buf[0], v)
      case Halt(_) =>
      case Next(d, _) =>
        ReachedEndExactly(d, buf[1..], v);
        CountNewlinesCons(buf[0], buf[1..]);
        assert [buf[0]] + buf[1..] == buf;
        if |buf| > 1 {
          assert buf[..|buf| - 1] == [buf[0]] + buf[1..][..|buf[1..]| - 1];
          CountNewlinesCons(buf[0], buf[1..][..|buf[1..]| - 1]);
        }
    }
  }

  /** `print_text` on a body whose lines fit: `reached_end` is false exactly when the body has more lines than the window below `start_line`. */
  lemma RenderReachedEnd(buf: seq<char>, v: View)
    requires FitsFrom(0, buf, v.cols)
    ensures Render(buf, v).reachedEnd <==>
      (buf == [] || CountNewlines(buf[..|buf| - 1]) - v.startLine <= v.rows - 2)
  {
    ReachedEndExactly(Start, buf, v);
  }

  // ---------------------------------------------------------------------------
  // Line classes

  /** The tail of a classified line: each character is written after the line's style. */
  lemma {:induction false} TextRun(c: Cursor, s: seq<char>, v: View)
    requires !c.lineStart && !c.preformatted && c.lineType != PreformattedToggleLine
    requires Visible(c, v) && c.col >= 1 && c.col + |s| <= v.cols - 1 && '\n' !in s
    ensures Run(c, s, v) == Rendering(c.(col := c.col + |s|), Styled(c.lineType, s), true)
    decreases |s|
  {
    if s != [] {
      assert StepChar(c, s[0], v) == Next(c.(col := c.col + 1), StyleOf(c.lineType) + [Put(s[0])]);
      TextRun(c.(col := c.col + 1), s[1..], v);
    }
  }

  /** Leading '#' characters are consumed without output and raise the heading level, saturating at SUBSUBHEADING. */
  lemma {:induction false} HashesRaiseLevel(c: Cursor, k: nat, v: View)
    requires c.lineStart && !c.preformatted && Visible(c, v) && c.col + k <= v.cols - 1
    requires c.lineType == NormalLine || IsHeading(c.lineType)
    ensures Run(c, Repeat('#', k), v) ==
      Rendering(c.(col := c.col + k, lineType := if k == 0 then c.lineType
                                                else if c.lineType == NormalLine then HeadingKind(k)
                                                else if c.lineType == HeadingLine then HeadingKind(k + 1)
                                                else SubsubheadingLine), [], true)
    decreases k
  {
    if k > 0 {
      var d := c.(col := c.col + 1, lineType := Raise(c.lineType));
      assert StepChar(c, '#', v) == Next(d, []);
      assert Repeat('#', k)[0] == '#' && Repeat('#', k)[1..] == Repeat('#', k - 1);
      HashesRaiseLevel(d, k - 1, v);
    }
  }

  /** A heading line with exactly `k` leading '#'. */
  lemma HeadingLineFrom(c: Cursor, k: nat, text: seq<char>, v: View)
    requires Fresh(c) && !c.preformatted && Visible(c, v)
    requires k >= 1 && k + |text| <= v.cols - 1
    requires |text| >= 1 && '\n' !in text && text[0] !in "#`*>"
    ensures Run(c, Repeat('#', k) + text, v).out ==
      [Style(HeadingKind(k)), Put('#'), Put(text[0])] + Styled(HeadingKind(k), text[1..])
  {
    HashesRaiseLevel(c, k, v);
    var h := c.(col := k, lineType := HeadingKind(k));
    assert Run(c, Repeat('#', k), v) == Rendering(h, [], true);
    RunAppend(c, Repeat('#', k), text, v);
    var d := h.(col := k + 1, lineStart := false);
    var first := [Style(HeadingKind(k)), Put('#'), Put(text[0])];
    assert StepChar(h, text[0], v) == Next(d, first);
    TextRun(d, text[1..], v);
    assert Run(h, text, v) == Rendering(d.(col := d.col + |text| - 1), first + Styled(HeadingKind(k), text[1..]), true);
  }

  /**
   * A heading line: `k` leading '#' are not echoed, exactly one '#' is written
   * before the first other character, and every character carries the style of
   * level min(k, 3), so four or more '#' render as three do.
   */
  lemma HeadingLineRendering(c: Cursor, k: nat, text: seq<char>, v: View)
    requires Fresh(c) && !c.preformatted && Visible(c, v)
    requires k >= 1 && k + |text| <= v.cols - 1
    requires |text| >= 1 && '\n' !in text && text[0] !in "#`*>"
    ensures Run(c, Repeat('#', k) + text, v).out ==
      [Style(HeadingKind(k)), Put('#'), Put(text[0])] + Styled(HeadingKind(k), text[1..])
    ensures k >= 3 ==> Run(c, Repeat('#', k) + text, v).out == Run(c, Repeat('#', 3) + text, v).out
  {
    HeadingLineFrom(c, k, text, v);
    if k >= 3 {
      HeadingLineFrom(c, 3, text, v);
    }
  }

  /** A list line: the leading '*' becomes a bullet and the rest is written as it is, without style. */
  lemma ListLineRendering(c: Cursor, text: seq<char>, v: View)
    requires Fresh(c) && !c.preformatted && Visible(c, v)
    requires 1 + |text| <= v.cols - 1 && '\n' !in text
    ensures Run(c, ['*'] + text, v).out == [Bullet] + Puts(text)
  {
    var d := c.(col := 1, lineStart := false, lineType := ListLine);
    assert StepChar(c, '*', v) == Next(d, [Bullet]);
    assert (['*'] + text)[1..] == text;
    TextRun(d, text, v);
    UnstyledIsPlain(ListLine, text);
  }

  /** A quote line: the '>' itself is written, and it and the rest carry the quote style. */
  lemma QuoteLineRendering(c: Cursor, text: seq<char>, v: View)
    requires Fresh(c) && !c.preformatted && Visible(c, v)
    requires 1 + |text| <= v.cols - 1 && '\n' !in text
    ensures Run(c, ['>'] + text, v).out == [Style(QuoteLine), Put('>')] + Styled(QuoteLine, text)
  {
    var d := c.(col := 1, lineStart := false, lineType := QuoteLine);
    assert StepChar(c, '>', v) == Next(d, [Style(QuoteLine), Put('>')]);
    assert (['>'] + text)[1..] == text;
    TextRun(d, text, v);
  }

  /** A class without a style writes its characters plainly. */
  lemma {:induction false} UnstyledIsPlain(t: LineType, s: seq<char>)
    requires StyleOf(t) == []
    ensures Styled(t, s) == Puts(s)
    decreases |s|
  {
    if s != [] {
      UnstyledIsPlain(t, s[1..]);
    }
  }

  // ---------------------------------------------------------------------------
  // Preformatted blocks

  /** A fence line "```" flips the block flag and writes nothing but the reset of its line break. */
  lemma FenceLine(c: Cursor, v: View)
    requires Fresh(c) && Visible(c, v) && 4 <= v.cols - 1
    ensures Run(c, "```\n", v) ==
      Rendering(Cursor(0, c.line + 1, 0, true, NormalLine, !c.preformatted), [ResetStyle], true)
  {
    var s := "```\n";
    var c1 := c.(col := c.col + 1, ticks := 1, lineType := PreformattedToggleLine);
    var c2 := c1.(col := c.col + 2, ticks := 2);
    var c3 := c2.(col := c.col + 3, ticks := 3, preformatted := !c.preformatted);
    assert StepChar(c, '`', v) == Next(c1, []);
    assert StepChar(c1, '`', v) == Next(c2, []);
    assert StepChar(c2, '`', v) == Next(c3, []);
    assert StepChar(c3, '\n', v) == Next(Cursor(0, c.line + 1, 0, true, NormalLine, !c.preformatted), [ResetStyle]);
    assert s[1..][1..][1..][1..] == [];
  }

  /** `n` fence lines in a row. */
  function Fences(n: nat): seq<char> {
    if n == 0 then [] else "```\n" + Fences(n - 1)
  }

  /**
   * Fences toggle in pairs: after `n` fence lines the block flag is set exactly
   * when `n` is odd (an unmatched fence leaves the rest of the body preformatted),
   * provided the window shows those lines.
   */
  lemma {:induction false} FenceParity(line: int, p: bool, n: nat, v: View)
    requires v.startLine - 1 <= line && line + n - 1 - v.startLine <= v.rows - 2 && v.cols >= 5
    ensures Run(Cursor(0, line, 0, true, NormalLine, p), Fences(n), v) ==
      Rendering(Cursor(0, line + n, 0, true, NormalLine, if n % 2 == 1 then !p else p), Resets(n), true)
    decreases n
  {
    if n > 0 {
      var c := Cursor(0, line, 0, true, NormalLine, p);
      FenceLine(c, v);
      RunAppend(c, "```\n", Fences(n - 1), v);
      FenceParity(line + 1, !p, n - 1, v);
    }
  }

  /** From the top of a body: `n` fence lines leave the renderer inside a block exactly when `n` is odd. */
  lemma FencesFromTop(n: nat, v: View)
    requires v.startLine <= 1 && n <= v.startLine + v.rows - 1 && v.cols >= 5
    ensures Render(Fences(n), v).cursor.preformatted == (n % 2 == 1)
    ensures Render(Fences(n), v).out == Resets(n)
  {
    FenceParity(0, false, n, v);
  }

  /**
   * An opening fence with text after the backticks ("```gemini") does not hide
   * that text: the third backtick already sets the block flag, so the rest of
   * the line and its line break are written verbatim, and the next line starts
   * inside the block.
   */
  lemma FenceAltTextShown(c: Cursor, alt: seq<char>, v: View)
    requires Fresh(c) && !c.preformatted && Visible(c, v) && 4 + |alt| <= v.cols - 1
    requires alt != [] && '\n' !in alt && '`' !in alt
    ensures Run(c, "```" + alt + "\n", v) ==
      Rendering(Cursor(0, c.line + 1, 0, true, PreformattedTextLine, true), Puts(alt) + [ResetStyle, Put('\n')], true)
  {
    var c1 := c.(col := 1, ticks := 1, lineType := PreformattedToggleLine);
    var c2 := c1.(col := 2, ticks := 2);
    var c3 := c2.(col := 3, ticks := 3, preformatted := true);
    assert StepChar(c, '`', v) == Next(c1, []);
    assert StepChar(c1, '`', v) == Next(c2, []);
    assert StepChar(c2, '`', v) == Next(c3, []);
    assert Run(c, "```", v) == Rendering(c3, [], true) by {
      assert "```"[1..][1..][1..] == [];
    }
    PreformattedText(c3, alt, v);
    var c4 := c3.(col := 3 + |alt|, lineType := PreformattedTextLine);
    var last := Cursor(0, c.line + 1, 0, true, PreformattedTextLine, true);
    assert StepChar(c4, '\n', v) == Next(last, [ResetStyle, Put('\n')]);
    assert Run(c4, "\n", v) == Rendering(last, [ResetStyle, Put('\n')], true) by {
      assert "\n"[0] == '\n' && "\n"[1..] == [];
    }
    RunAppend(c3, alt, "\n", v);
    RunAppend(c, "```", alt + "\n", v);
    assert "```" + alt + "\n" == "```" + (alt + "\n");
  }

  /** Inside a block, a line without backticks is written verbatim, unstyled, and the block stays open. */
  lemma {:induction false} PreformattedText(c: Cursor, s: seq<char>, v: View)
    requires c.preformatted && Visible(c, v) && 0 <= c.col && c.col + |s| <= v.cols - 1
    requires '\n' !in s && '`' !in s
    requires c.col == 0 ==> s == [] || s[0] != ' '
    ensures Run(c, s, v).out == Puts(s)
    ensures Run(c, s, v).reachedEnd && Run(c, s, v).cursor.preformatted
    ensures s != [] ==> Run(c, s, v).cursor == c.(col := c.col + |s|, lineType := PreformattedTextLine)
    ensures s == [] ==> Run(c, s, v).cursor == c
    decreases |s|
  {
    if s != [] {
      var d := c.(col := c.col + 1, lineType := PreformattedTextLine);
      assert StepChar(c, s[0], v) == Next(d, [Put(s[0])]);
      PreformattedText(d, s[1..], v);
    }
  }

  /**
   * Inside a block every backtick counts as a fence backtick, wherever it stands
   * on the line (the line-start flag is never cleared there): the text before it
   * is written, the backtick itself is swallowed and counted, and the third one
   * on the line closes the block.
   */
  lemma BlockBacktickCounted(c: Cursor, s: seq<char>, v: View)
    requires c.preformatted && c.lineStart && Visible(c, v) && 0 <= c.col && c.col + |s| + 1 <= v.cols - 1
    requires '\n' !in s && '`' !in s
    requires c.col == 0 ==> s == [] || s[0] != ' '
    ensures Run(c, s + "`", v) ==
      Rendering(c.(col := c.col + |s| + 1, ticks := c.ticks + 1, preformatted := !(c.ticks + 1 > 2),
                   lineType := PreformattedToggleLine), Puts(s), true)
  {
    PreformattedText(c, s, v);
    RunAppend(c, s, "`", v);
    var e := Run(c, s, v).cursor;
    var f := c.(col := c.col + |s| + 1, ticks := c.ticks + 1, preformatted := !(c.ticks + 1 > 2),
                lineType := PreformattedToggleLine);
    assert e.(col := e.col + 1, ticks := e.ticks + 1, preformatted := !(c.ticks + 1 > 2),
              lineType := PreformattedToggleLine) == f;
    assert StepChar(e, '`', v) == Next(f, []);
    assert Run(e, "`", v) == Rendering(f, [], true) by {
      assert "`"[0] == '`' && "`"[1..] == [];
    }
    assert Puts(s) + [] == Puts(s);
  }

  // ---------------------------------------------------------------------------
  // Width and scrolling

  /**
   * Hard wrap on lines from `start_line` on: once a line holds `ws_col - 1`
   * characters, the next character is written as it is and the line is broken
   * (reset, newline) before anything else is read.
   */
  lemma HardWrap(c: Cursor, ch: char, v: View)
    requires c.col + 1 > v.cols - 1 && c.line >= v.startLine && c.line - v.startLine <= v.rows - 2
    requires c.lineType != PreformattedToggleLine
    ensures StepChar(c, ch, v) ==
      Next(Cursor(0, c.line + 1, 0, true, if c.preformatted then PreformattedTextLine else NormalLine, c.preformatted),
           [Put(ch), ResetStyle, Put('\n')])
  {
  }

  /**
   * Hard wrap on line `start_line - 1`, the one line above `start_line` whose
   * characters are still written: the wrap character is not written, only the
   * reset and the newline of the line break, so that character is lost.
   */
  lemma HardWrapDropsCharAboveStart(c: Cursor, ch: char, v: View)
    requires c.col + 1 > v.cols - 1 && c.line == v.startLine - 1 && v.rows >= 1
    requires c.lineType != PreformattedToggleLine
    ensures StepChar(c, ch, v) ==
      Next(Cursor(0, c.line + 1, 0, true, if c.preformatted then PreformattedTextLine else NormalLine, c.preformatted),
           [ResetStyle, Put('\n')])
  {
  }

  /** No line is ever allowed to grow past the wrap column: the column count stays below `ws_col`. */
  lemma {:induction false} ColumnBounded(c: Cursor, buf: seq<char>, v: View)
    requires 0 <= c.col < v.cols || c.col == 0
    ensures var d := Run(c, buf, v).cursor; 0 <= d.col < v.cols || d.col == 0
    decreases |buf|
  {
    if buf != [] {
      StepPosition(c, buf[0], v);
      if StepChar(c, buf[0], v).Next? {
        ColumnBounded(StepChar(c, buf[0], v).cursor, buf[1..], v);
      }
    }
  }

  /** The first character of a line, when it is a space, is not written (once the window is at least two columns wide). */
  lemma LeadingSpaceElided(c: Cursor, v: View)
    requires c.col == 0 && v.cols >= 2 && c.line - v.startLine <= v.rows - 2
    ensures StepChar(c, ' ', v) == Next(c.(col := 1), [])
  {
  }

  /** The loop never moves back a line. */
  lemma {:induction false} LineMonotone(c: Cursor, buf: seq<char>, v: View)
    ensures Run(c, buf, v).cursor.line >= c.line
    decreases |buf|
  {
    if buf != [] {
      StepPosition(c, buf[0], v);
      if StepChar(c, buf[0], v).Next? {
        LineMonotone(StepChar(c, buf[0], v).cursor, buf[1..], v);
      }
    }
  }

  /**
   * Lines above `start_line - 1` are neither written nor classified, wrapped or
   * not: the loop only resets the style at each of their line breaks (one per
   * line it moves down), and a fence there does not open or close a block.
   */
  lemma {:induction false} ScrolledOffLinesSilent(c: Cursor, buf: seq<char>, v: View)
    requires Run(c, buf, v).cursor.line < v.startLine - 1
    ensures forall i :: 0 <= i < |Run(c, buf, v).out| ==> Run(c, buf, v).out[i] == ResetStyle
    ensures |Run(c, buf, v).out| == Run(c, buf, v).cursor.line - c.line
    ensures Run(c, buf, v).cursor.preformatted == c.preformatted
    ensures Run(c, buf, v).reachedEnd
    decreases |buf|
  {
    if buf != [] {
      LineMonotone(c, buf, v);
      StepPosition(c, buf[0], v);
      var d := StepChar(c, buf[0], v).cursor;
      LineMonotone(d, buf[1..], v);
      ScrolledOffLinesSilent(d, buf[1..], v);
      if d.line == c.line + 1 {
        assert StepChar(c, buf[0], v).out == [ResetStyle];
      } else {
        assert StepChar(c, buf[0], v).out == [];
      }
      assert d.preformatted == c.preformatted;
    }
  }
}

=== FILE: request.dfy ===
/**
 * The request side of main.c: turning what the user typed (a command-line
 * argument or the operand of ":open") into the Gemini request line, and the
 * server name and port to connect to.
 *
 * The URL parser itself (`parse_url` of url_parser.h) is not part of this
 * model; it is a parameter `parseUrl` and only its result type is fixed here.
 */
module Request {
  import opened Wrappers
  import opened CStrings

  /** `struct parsed_url`: the scheme is a (possibly empty) string, the other parts may be absent. */
  datatype Url = Url(scheme: string, host: string, port: Option<string>, path: Option<string>, query: Option<string>)

  const DefaultScheme: string := "gemini"
  const DefaultPort: string := "1965"
  /** `malloc(1024)` for `get_request`, `malloc(255)` for `server_name`, `malloc(10)` for `server_port`. */
  const RequestSize: nat := 1024
  const ServerNameSize: nat := 255
  const ServerPortSize: nat := 10
  /** `char port[10]` in setup_request. */
  const PortFieldSize: nat := 10

  // ---------------------------------------------------------------------------
  // strpre and strstr

  /**
   * strpre(s, t): the string in `s` moves right by |t| (memmove, with its
   * terminator) and `t` is copied in front of it (memcpy).
   */
  method StrPre(s: array<char>, t: string)
    requires Terminated(s[..]) && NUL !in t
    requires StrLen(s[..]) + |t| < s.Length
    modifies s
    ensures s[..] == t + old(CStr(s[..])) + [NUL] + old(s[StrLen(s[..]) + |t| + 1..])
    ensures Terminated(s[..]) && CStr(s[..]) == t + old(CStr(s[..]))
  {
    var n := StrLen(s[..]);
    var len := |t|;
    ghost var before := s[..];
    forall i | len <= i < len + n + 1 {
      s[i] := s[i - len];
    }
    forall i | 0 <= i < len {
      s[i] := t[i];
    }
    assert s[..] == t + before[..n] + [NUL] + before[n + len + 1..];
    StrLenOfTerminated(t + before[..n], before[n + len + 1..]);
  }

  /** `t` occurs in `s` at position `i`. */
  predicate OccursAt(s: string, t: string, i: int) {
    0 <= i && i + |t| <= |s| && s[i..i + |t|] == t
  }

  /** strstr(s, t) != NULL. */
  predicate Contains(s: string, t: string) {
    exists i :: 0 <= i <= |s| && OccursAt(s, t, i)
  }

  /** The text parse_input_url hands to parse_url: a scheme separator is put in front when there is none. */
  function WithScheme(s: string): (r: string)
    ensures Contains(r, "://")
    ensures Contains(s, "://") ==> r == s
    ensures !Contains(s, "://") ==> r == "://" + s
  {
    if Contains(s, "://") then s
    else
      var r := "://" + s;
      assert OccursAt(r, "://", 0);
      r
  }

  /** Prefixing the separator once is enough: a second pass leaves the text alone. */
  lemma WithSchemeIdempotent(s: string)
    ensures WithScheme(WithScheme(s)) == WithScheme(s)
  {
  }

  // ---------------------------------------------------------------------------
  // setup_request

  function SchemeOf(u: Url): string {
    if u.scheme == "" then DefaultScheme else u.scheme
  }

  function PathOf(u: Url): string {
    if u.path.Some? then u.path.value else ""
  }

  function PortOf(u: Url): string {
    if u.port.Some? then u.port.value else DefaultPort
  }

  /** The `port` buffer of setup_request: ":" and the port, or nothing. */
  function PortField(u: Url): string {
    if u.port.Some? then ":" + u.port.value else ""
  }

  /** The `query` buffer of setup_request: "?" and the query, or nothing. */
  function QueryField(u: Url): string {
    if u.query.Some? then "?" + u.query.value else ""
  }

  /** The line setup_request prints: `scheme://host[:port]/path[?query]` and CR LF. */
  function RequestLine(u: Url): string {
    SchemeOf(u) + "://" + u.host + PortField(u) + "/" + PathOf(u) + QueryField(u) + "\r\n"
  }

  /** Every part of a parsed URL is a C string. */
  predicate NulFree(u: Url) {
    NUL !in u.scheme && NUL !in u.host
    && (u.port.Some? ==> NUL !in u.port.value)
    && (u.path.Some? ==> NUL !in u.path.value)
    && (u.query.Some? ==> NUL !in u.query.value)
  }

  /** The request line is a C string that always names a scheme and ends with CR LF. */
  lemma RequestLineShape(u: Url)
    requires NulFree(u)
    ensures NUL !in RequestLine(u)
    ensures |RequestLine(u)| >= 2 && RequestLine(u)[|RequestLine(u)| - 2..] == "\r\n"
    ensures Contains(RequestLine(u), "://")
  {
    var r := RequestLine(u);
    var s := SchemeOf(u);
    assert OccursAt(r, "://", |s|);
  }

  /**
   * Bytes `malloc`ed for the query buffer as main.c:48 and main.c:54 ask: one
   * for the query and one for the terminator, none for the '?'.
   */
  function QueryAllocationAsWritten(query: Option<string>): nat {
    if query.Some? then |query.value| + 1 else 1
  }

  /** The bytes `strcpy(query, "?"); strcat(query, url->query)` write, counting the terminator. */
  function QueryBytesWritten(query: Option<string>): nat {
    if query.Some? then |"?" + query.value| + 1 else 1
  }

  /** Whenever a query is present, the writes run one byte past the allocation. */
  lemma QueryAllocationOneShort(q: string)
    ensures QueryBytesWritten(Some(q)) == QueryAllocationAsWritten(Some(q)) + 1
  {
  }

  /** The allocation the query buffer needs: room for the '?', the query and the terminator. */
  function QueryBufferSize(query: Option<string>): (n: nat)
    ensures n == QueryBytesWritten(query)
    ensures query.Some? ==> n == QueryAllocationAsWritten(query) + 1
  {
    if query.Some? then |query.value| + 2 else 1
  }

  /** The `port` buffer of setup_request, `char port[10]`: ":" and the port, or empty. */
  method BuildPortField(u: Url) returns (port: array<char>)
    requires u.port.Some? ==> NUL !in u.port.value && 1 + |u.port.value| < PortFieldSize
    ensures port.Length == PortFieldSize
    ensures Terminated(port[..]) && CStr(port[..]) == PortField(u)
  {
    port := new char[PortFieldSize];
    if u.port.Some? {
      StrCpy(port, ":");
      StrCat(port, u.port.value);
    } else {
      StrCpy(port, "");
    }
  }

  /** The `query` buffer of setup_request: "?" and the query, or empty, in a buffer of the corrected size. */
  method BuildQueryField(u: Url) returns (query: array<char>)
    requires u.query.Some? ==> NUL !in u.query.value
    ensures query.Length == QueryBufferSize(u.query)
    ensures Terminated(query[..]) && CStr(query[..]) == QueryField(u)
  {
    query := new char[QueryBufferSize(u.query)];
    if u.query.Some? {
      StrCpy(query, "?");
      StrCat(query, u.query.value);
    } else {
      StrCpy(query, "");
    }
  }

  /**
   * setup_request: the port and query parts are built in their own buffers,
   * then the request line is printed into `getRequest` (sprintf).
   */
  method SetupRequest(u: Url, getRequest: array<char>)
    requires NulFree(u)
    requires u.port.Some? ==> 1 + |u.port.value| < PortFieldSize
    requires |RequestLine(u)| < getRequest.Length
    modifies getRequest
    ensures Terminated(getRequest[..]) && CStr(getRequest[..]) == RequestLine(u)
  {
    var scheme := if u.scheme == "" then DefaultScheme else u.scheme;
    var port := BuildPortField(u);
    var path := if u.path.Some? then u.path.value else "";
    var query := BuildQueryField(u);
    var line := scheme + "://" + u.host + CStr(port[..]) + "/" + path + CStr(query[..]) + "\r\n";
    assert line == RequestLine(u);
    RequestLineShape(u);
    StrCpy(getRequest, line);
  }

  // ---------------------------------------------------------------------------
  // Reading a request line back

  /** The first position of `ch` in `s`. */
  function IndexOf(s: string, ch: char): (r: Option<nat>)
    ensures r.Some? ==> r.value < |s| && s[r.value] == ch && ch !in s[..r.value]
    ensures r.None? ==> ch !in s
  {
    if s == [] then None
    else if s[0] == ch then Some(0)
    else
      match IndexOf(s[1..], ch)
      case None => None
      case Some(i) =>
        assert s[..i + 1] == [s[0]] + s[1..][..i];
        Some(i + 1)
  }

  /** The first `ch` of `a + [ch] + b` is the one after `a` when `a` has none. */
  lemma IndexOfAfter(a: string, ch: char, b: string)
    requires ch !in a
    ensures IndexOf(a + [ch] + b, ch) == Some(|a|)
  {
    var s := a + [ch] + b;
    assert s[..|a|] == a && s[|a|] == ch;
    var k := IndexOf(s, ch).value;
    assert forall j | |a| < j <= |s| :: s[..j][|a|] == ch;
  }

  /** `s` cut at its first `ch`: what comes before, and what comes after if there is one. */
  function SplitAt(s: string, ch: char): (string, Option<string>) {
    match IndexOf(s, ch)
    case None => (s, None)
    case Some(k) => (s[..k], Some(s[k + 1..]))
  }

  /** Cutting at a `ch` the prefix does not contain. */
  lemma SplitAtFirst(a: string, ch: char, b: string)
    requires ch !in a
    ensures SplitAt(a + [ch] + b, ch) == (a, Some(b))
  {
    IndexOfAfter(a, ch, b);
    assert (a + [ch] + b)[..|a|] == a && (a + [ch] + b)[|a| + 1..] == b;
  }

  /**
   * A reader of request lines, written independently of `RequestLine`: the
   * line ends with CR LF, the scheme ends at the first ':' which must be
   * followed by "//", the authority ends at the next '/', a ':' in the
   * authority starts the port, and a '?' in the rest starts the query.
   */
  function DecodeRequest(r: string): Option<Url> {
    if |r| < 2 || r[|r| - 2..] != "\r\n" then None
    else DecodeLine(r[..|r| - 2])
  }

  function DecodeLine(line: string): Option<Url> {
    match SplitAt(line, ':')
    case (_, None) => None
    case (scheme, Some(rest)) =>
      if |rest| < 2 || rest[..2] != "//" then None
      else
        match SplitAt(rest[2..], '/')
        case (_, None) => None
        case (authority, Some(target)) =>
          var (host, port) := SplitAt(authority, ':');
          var (path, query) := SplitAt(target, '?');
          Some(Url(scheme, host, port, if path == [] then None else Some(path), query))
  }

  /** The parts of a URL do not contain the separators that follow them in a request line. */
  predicate Separable(u: Url) {
    ':' !in u.scheme && ':' !in u.host && '/' !in u.host
    && (u.port.Some? ==> '/' !in u.port.value)
    && (u.path.Some? ==> '?' !in u.path.value)
  }

  /** What a request line can say about a URL: the default scheme filled in, an empty path the same as none. */
  function Canonical(u: Url): Url {
    Url(SchemeOf(u), u.host, u.port, if PathOf(u) == "" then None else Some(PathOf(u)), u.query)
  }

  /** The authority of a request line splits back into host and port. */
  lemma AuthorityRoundTrip(u: Url)
    requires Separable(u)
    ensures SplitAt(u.host + PortField(u), ':') == (u.host, u.port)
    ensures '/' !in u.host + PortField(u)
  {
    if u.port.Some? {
      assert u.host + PortField(u) == u.host + [':'] + u.port.value;
      SplitAtFirst(u.host, ':', u.port.value);
    } else {
      assert u.host + PortField(u) == u.host;
    }
  }

  /** The target of a request line splits back into path and query. */
  lemma TargetRoundTrip(u: Url)
    requires Separable(u)
    ensures SplitAt(PathOf(u) + QueryField(u), '?') == (PathOf(u), u.query)
  {
    if u.query.Some? {
      assert PathOf(u) + QueryField(u) == PathOf(u) + ['?'] + u.query.value;
      SplitAtFirst(PathOf(u), '?', u.query.value);
    } else {
      assert PathOf(u) + QueryField(u) == PathOf(u);
    }
  }

  /** A line `scheme://authority/target` decodes part by part. */
  lemma DecodeLineParts(scheme: string, authority: string, target: string)
    requires ':' !in scheme && '/' !in authority
    ensures DecodeLine(scheme + "://" + authority + "/" + target) ==
      var (host, port) := SplitAt(authority, ':');
      var (path, query) := SplitAt(target, '?');
      Some(Url(scheme, host, port, if path == [] then None else Some(path), query))
  {
    var rest := "//" + authority + "/" + target;
    assert scheme + "://" + authority + "/" + target == scheme + [':'] + rest;
    SplitAtFirst(scheme, ':', rest);
    assert rest[..2] == "//" && rest[2..] == authority + ['/'] + target;
    SplitAtFirst(authority, '/', target);
  }

  /** The request line names exactly the URL it was built from, up to the defaults setup_request fills in. */
  lemma RequestLineRoundTrip(u: Url)
    requires Separable(u)
    ensures DecodeRequest(RequestLine(u)) == Some(Canonical(u))
  {
    var authority, target := u.host + PortField(u), PathOf(u) + QueryField(u);
    var line := SchemeOf(u) + "://" + authority + "/" + target;
    var r := RequestLine(u);
    assert r == line + "\r\n";
    assert r[..|r| - 2] == line && r[|r| - 2..] == "\r\n";
    AuthorityRoundTrip(u);
    TargetRoundTrip(u);
    DecodeLineParts(SchemeOf(u), authority, target);
  }

  // ---------------------------------------------------------------------------
  // parse_input_url

  /** The URL parse_input_url works with for the text `input`. */
  function ParsedUrl(input: string, parseUrl: string -> Url): Url {
    parseUrl(WithScheme(input))
  }

  /** The buffers parse_input_url writes are large enough for what it writes into them. */
  predicate FitsBuffers(u: Url, requestSize: nat, nameSize: nat, portSize: nat) {
    NulFree(u)
    && (u.port.Some? ==> 1 + |u.port.value| < PortFieldSize)
    && |RequestLine(u)| < requestSize
    && |u.host| < nameSize
    && |PortOf(u)| < portSize
  }

  /**
   * parse_input_url: puts "://" in front of the input when it has no scheme
   * separator, parses it, rewrites `getRequest` as the full request line, and
   * copies the host and the port (1965 when none is given) to `serverName` and
   * `serverPort`.
   */
  method ParseInputUrl(getRequest: array<char>, serverName: array<char>, serverPort: array<char>,
                       parseUrl: string -> Url)
    requires getRequest != serverName && getRequest != serverPort && serverName != serverPort
    requires Terminated(getRequest[..])
    requires !Contains(CStr(getRequest[..]), "://") ==> StrLen(getRequest[..]) + 3 < getRequest.Length
    requires FitsBuffers(ParsedUrl(CStr(getRequest[..]), parseUrl), getRequest.Length, serverName.Length, serverPort.Length)
    modifies getRequest, serverName, serverPort
    ensures var u := ParsedUrl(old(CStr(getRequest[..])), parseUrl);
      && Terminated(getRequest[..]) && CStr(getRequest[..]) == RequestLine(u)
      && Terminated(serverName[..]) && CStr(serverName[..]) == u.host
      && Terminated(serverPort[..]) && CStr(serverPort[..]) == PortOf(u)
  {
    ghost var input := CStr(getRequest[..]);
    if !Contains(CStr(getRequest[..]), "://") {
      StrPre(getRequest, "://");
    }
    assert CStr(getRequest[..]) == WithScheme(input);
    var url := parseUrl(CStr(getRequest[..]));
    SetupRequest(url, getRequest);
    StrCpy(serverName, url.host);
    if url.port.Some? {
      StrCpy(serverPort, url.port.value);
    } else {
      StrCpy(serverPort, DefaultPort);
    }
  }

  /**
   * After parse_input_url the buffer holds a request line with a scheme
   * separator, so parsing it again (as the main loop does for the first
   * request) does not put a second "://" in front.
   */
  lemma SecondParseKeepsText(u: Url)
    requires NulFree(u)
    ensures WithScheme(RequestLine(u)) == RequestLine(u)
  {
    RequestLineShape(u);
  }
}

=== FILE: term_input.dfy ===
/**
 * The keystroke machine of term.c: `parse_input` edits the 100-byte command
 * buffer one key at a time and reports whether a command was submitted.
 *
 * In normal mode (the buffer does not start with ':') the keys q, j and k
 * submit the commands ":quit", ":down" and ":up" at once, ':' opens a command
 * line, and every other key is ignored. In command mode the keys are typed
 * into the buffer, DEL (0x7f) erases the last one, and Enter submits.
 */
module TermInput {
  import opened CStrings

  /** Size of the command buffer `char command[100]` of main.c. */
  const CommandSize: nat := 100
  /** The DEL key, which the terminal sends for backspace. */
  const Backspace: char := 0x7F as char

  /** The buffer is in command mode when its first character is ':'. */
  predicate CommandMode(command: string) {
    |command| > 0 && command[0] == ':'
  }

  /** The shape every buffer the keystroke machine produces has: empty, or a command line. */
  predicate Reachable(command: string) {
    command == [] || CommandMode(command)
  }

  /** What one key does to the string in the buffer, and whether it submits it (return value 1). */
  datatype KeyResult = KeyResult(command: string, submit: bool)

  /** The effect of `parse_input(input, command)` on the string the buffer holds. */
  function Key(command: string, input: char): KeyResult
  {
    if !CommandMode(command) then
      if input == 'q' then KeyResult(command + ":quit", true)
      else if input == 'j' then KeyResult(command + ":down", true)
      else if input == 'k' then KeyResult(command + ":up", true)
      else if input == ':' then KeyResult(command + ":", false)
      else KeyResult(command, false)
    else if input == Backspace then KeyResult(command[..|command| - 1], false)
    else if input == '\n' then KeyResult(command, true)
    // Storing a NUL at the end leaves the string as it was.
    else if input == NUL then KeyResult(command, false)
    else KeyResult(command + [input], false)
  }

  /**
   * parse_input: edits the buffer in place. The source appends without a bound;
   * the model requires that the new string and its terminator fit the buffer.
   */
  method ParseInput(input: char, command: array<char>) returns (r: int)
    requires ZeroFilled(command[..])
    requires |Key(CStr(command[..]), input).command| < command.Length
    modifies command
    ensures ZeroFilled(command[..])
    ensures CStr(command[..]) == Key(old(CStr(command[..])), input).command
    ensures r == (if Key(old(CStr(command[..])), input).submit then 1 else 0)
  {
    var n := StrLen(command[..]);
    if command[0] != ':' {
      if input == 'q' {
        StrCat(command, ":quit");
      } else if input == 'j' {
        StrCat(command, ":down");
      } else if input == 'k' {
        StrCat(command, ":up");
      } else if input == ':' {
        // falls through to `default`: the command line opens, nothing is submitted
        StrCat(command, ":");
        return 0;
      } else {
        return 0;
      }
      return 1;
    } else {
      if input == Backspace {
        command[n - 1] := NUL;
        ZeroFilledAfterErase(old(command[..]), command[..], n);
      } else if input == '\n' {
        return 1;
      } else {
        command[n] := input;
        ZeroFilledAfterStore(old(command[..]), command[..], n, input);
      }
    }
    return 0;
  }

  /** Clearing the last character of a zero-filled buffer leaves it zero-filled, one shorter. */
  lemma ZeroFilledAfterErase(before: seq<char>, after: seq<char>, n: nat)
    requires ZeroFilled(before) && n == StrLen(before) && 0 < n
    requires after == before[n - 1 := NUL]
    ensures ZeroFilled(after) && CStr(after) == CStr(before)[..n - 1]
  {
    StrLenOfTerminated(before[..n - 1], after[n..]);
    assert after == before[..n - 1] + [NUL] + after[n..];
  }

  /** Storing a character over the terminator of a zero-filled buffer appends it (a NUL changes nothing). */
  lemma ZeroFilledAfterStore(before: seq<char>, after: seq<char>, n: nat, c: char)
    requires ZeroFilled(before) && n == StrLen(before) && (c == NUL || n + 1 < |before|)
    requires after == before[n := c]
    ensures ZeroFilled(after)
    ensures CStr(after) == if c == NUL then CStr(before) else CStr(before) + [c]
  {
    if c == NUL {
      assert after == before;
    } else {
      StrLenOfTerminated(before[..n] + [c], after[n + 1 + 1..]);
      assert after == (before[..n] + [c]) + [NUL] + after[n + 1 + 1..];
    }
  }

  // ---------------------------------------------------------------------------
  // Properties of the keystroke machine

  /** Every key keeps the buffer empty or a command line: normal mode always means an empty buffer. */
  lemma KeyKeepsReachable(command: string, input: char)
    requires Reachable(command)
    ensures Reachable(Key(command, input).command)
  {
  }

  /** A submitted buffer always starts with ':', so the first token main.c reads from it exists. */
  lemma SubmittedIsCommandLine(command: string, input: char)
    requires Reachable(command)
    ensures Key(command, input).submit ==> CommandMode(Key(command, input).command)
  {
  }

  /** In normal mode q, j and k submit ":quit", ":down" and ":up"; ':' opens the line; any other key is ignored. */
  lemma NormalModeKeys(input: char)
    ensures Key([], input) == (
      if input == 'q' then KeyResult(":quit", true)
      else if input == 'j' then KeyResult(":down", true)
      else if input == 'k' then KeyResult(":up", true)
      else if input == ':' then KeyResult(":", false)
      else KeyResult([], false))
  {
  }

  /** Backspace undoes a typed character; erasing a lone ':' returns to normal mode. */
  lemma BackspaceUndoesTyping(command: string, input: char)
    requires CommandMode(command)
    requires input != Backspace && input != '\n' && input != NUL
    ensures Key(Key(command, input).command, Backspace) == KeyResult(command, false)
    ensures Key(":", Backspace) == KeyResult([], false)
  {
    assert (command + [input])[..|command|] == command;
  }

  /** The buffer after a whole sequence of keys, and whether the last key submitted it. */
  function Keys(command: string, inputs: seq<char>): KeyResult
    decreases |inputs|
  {
    if inputs == [] then KeyResult(command, false)
    else
      var k := Key(command, inputs[0]);
      if |inputs| == 1 then k else Keys(k.command, inputs[1..])
  }

  /** A key that is typed into a command line as itself. */
  predicate Typed(c: char) {
    c != Backspace && c != '\n' && c != NUL
  }

  /** In command mode, typing a string of ordinary characters appends exactly that string. */
  lemma {:induction false} TypingAppends(command: string, text: string)
    requires CommandMode(command)
    requires forall i :: 0 <= i < |text| ==> Typed(text[i])
    ensures Keys(command, text) == KeyResult(command + text, false)
    decreases |text|
  {
    if text == [] {
    } else if |text| == 1 {
      assert command + text == command + [text[0]];
    } else {
      TypingAppends(command + [text[0]], text[1..]);
      assert (command + [text[0]]) + text[1..] == command + text;
    }
  }

  /** From an empty buffer, ':' then a command then Enter submits exactly ':' followed by the command. */
  lemma {:induction false} CommandLineSubmits(text: string)
    requires forall i :: 0 <= i < |text| ==> Typed(text[i])
    ensures Keys([], [':'] + text + ['\n']) == KeyResult([':'] + text, true)
  {
    var keys := [':'] + text + ['\n'];
    assert keys[0] == ':' && keys[1..] == text + ['\n'];
    assert Key([], ':') == KeyResult([':'], false);
    assert Keys([], keys) == Keys([':'], text + ['\n']);
    KeysSplit([':'], text, '\n');
    TypingAppends([':'], text);
  }

  /** Running keys then one more key is the last key applied to the buffer the first ones left. */
  lemma {:induction false} KeysSplit(command: string, inputs: seq<char>, last: char)
    ensures Keys(command, inputs + [last]) == Key(Keys(command, inputs).command, last)
    decreases |inputs|
  {
    if inputs == [] {
      assert inputs + [last] == [last];
    } else {
      assert (inputs + [last])[1..] == inputs[1..] + [last];
      KeysSplit(Key(command, inputs[0]).command, inputs[1..], last);
    }
  }
}

=== FILE: term_render.dfy ===
/**
 * The gemtext renderer of term.c, `print_text`: one pass over the body that
 * classifies each line by its leading characters (heading levels, list item,
 * quote, preformatted fence), hard-wraps at the terminal width, clips to the
 * scroll window, and reports whether it reached the end of the body.
 *
 * The terminal output is modelled as a sequence of abstract events instead of
 * ANSI escape bytes. `StepChar` is one iteration of the loop as a function,
 * `Run` the whole loop, and `PrintText` the loop itself, proved to produce
 * what `Run` describes.
 */
module TermRender {

  /** `enum line_types`; LINK_LINE is left out because nothing assigns it. */
  datatype LineType =
    | NormalLine
    | PreformattedToggleLine
    | PreformattedTextLine
    | HeadingLine
    | SubheadingLine
    | SubsubheadingLine
    | ListLine
    | QuoteLine

  /** What `print_text` writes to the terminal. */
  datatype Event =
    | ResetStyle          // the escape that resets colour and emphasis at every line break
    | Style(kind: LineType) // the colour/emphasis escape for a line class
    | Put(c: char)        // putchar
    | Bullet              // the bullet glyph that replaces a leading '*'

  /** The terminal size and scroll offset: `ws.ws_col`, `ws.ws_row`, `start_line`. */
  datatype View = View(cols: nat, rows: nat, startLine: int)

  /**
   * The loop variables that survive from one character to the next:
   * `tmpi`, `line`, `preformatted_tmp`, `line_start`, `line_type` and
   * `preformatted_line`. (`newline` and `print_heading` never outlive one iteration.)
   */
  datatype Cursor = Cursor(col: int, line: int, ticks: int, lineStart: bool, lineType: LineType, preformatted: bool)

  /** The loop variables before the first character. */
  const Start: Cursor := Cursor(0, 0, 0, true, NormalLine, false)

  /** One iteration: the loop stops (after any wrap output), or goes on with a new cursor. */
  datatype Step = Halt(out: seq<Event>) | Next(cursor: Cursor, out: seq<Event>)

  predicate IsHeading(t: LineType) {
    t == HeadingLine || t == SubheadingLine || t == SubsubheadingLine
  }

  /**
   * A further leading '#': classes ordered before HEADING_LINE become HEADING_LINE,
   * the heading levels go up one, SUBSUBHEADING_LINE stays.
   */
  function Raise(t: LineType): LineType {
    match t
    case NormalLine | PreformattedToggleLine | PreformattedTextLine => HeadingLine
    case HeadingLine => SubheadingLine
    case SubheadingLine => SubsubheadingLine
    case _ => t
  }

  /** The escape `print_text` writes before each character of a line of class `t`. */
  function StyleOf(t: LineType): seq<Event> {
    match t
    case PreformattedTextLine | HeadingLine | SubheadingLine | SubsubheadingLine | QuoteLine => [Style(t)]
    case _ => []
  }

  /** One iteration of the loop of `print_text` on character `ch`. */
  function StepChar(c: Cursor, ch: char, v: View): Step {
    var col := c.col + 1;
    var wraps := col > v.cols - 1;
    var wrapOut := if wraps && c.line >= v.startLine then [Put(ch)] else [];
    if c.line - v.startLine > v.rows - 2 then Halt(wrapOut)
    else if ch == '\n' || wraps then
      var d := c.(col := 0, line := c.line + 1, ticks := 0, lineStart := true, lineType := NormalLine);
      if c.lineType == PreformattedToggleLine then Next(d, wrapOut + [ResetStyle])
      else Classify(d, '\n', v, wrapOut + [ResetStyle])
    else Classify(c.(col := col), ch, v, [])
  }

  /** The part of an iteration after the line bookkeeping: clipping, the leading-space rule, then the line class. */
  function Classify(c: Cursor, ch: char, v: View, out: seq<Event>): Step {
    if c.line < v.startLine - 1 then Next(c, out)
    else if c.col == 1 && ch == ' ' then Next(c, out)
    else if c.preformatted then
      if c.lineStart && ch == '`' then
        Next(c.(ticks := c.ticks + 1, preformatted := !(c.ticks + 1 > 2), lineType := PreformattedToggleLine), out)
      else Next(c.(lineType := PreformattedTextLine), out + [Put(ch)])
    else Markup(c, ch, out)
  }

  /** Outside a preformatted block: the switch on a line's leading character, then the switch on the line class. */
  function Markup(c: Cursor, ch: char, out: seq<Event>): Step {
    if c.lineStart && ch == '`' then
      var ticks := c.ticks + 1;
      Next(c.(ticks := ticks, preformatted := if ticks > 2 then !c.preformatted else c.preformatted,
              lineType := PreformattedToggleLine), out)
    else if c.lineStart && ch == '*' then Next(c.(lineStart := false, lineType := ListLine), out + [Bullet])
    else if c.lineStart && ch == '#' then Next(c.(lineType := Raise(c.lineType)), out)
    else
      var printHeading := c.lineStart && ch != '>' && ch != '\n' && IsHeading(c.lineType);
      var d :=
        if !c.lineStart || ch == '\n' then c
        else if ch == '>' then c.(lineStart := false, lineType := QuoteLine)
        else c.(lineStart := false);
      if d.lineType == PreformattedToggleLine then Next(d, out)
      else Next(d, out + StyleOf(d.lineType) + (if printHeading then [Put('#')] else []) + [Put(ch)])
  }

  /** The loop's result: the cursor it ended with, everything it wrote, and `reached_end`. */
  datatype Rendering = Rendering(cursor: Cursor, out: seq<Event>, reachedEnd: bool)

  /** The loop of `print_text` over `buf`, from cursor `c`. */
  function Run(c: Cursor, buf: seq<char>, v: View): Rendering
    decreases |buf|
  {
    if buf == [] then Rendering(c, [], true)
    else
      match StepChar(c, buf[0], v)
      case Halt(out) => Rendering(c, out, false)
      case Next(d, out) =>
        var r := Run(d, buf[1..], v);
        Rendering(r.cursor, out + r.out, r.reachedEnd)
  }

  /** `print_text(buf, strlen(buf), ws, start_line)`. */
  function Render(buf: seq<char>, v: View): Rendering {
    Run(Start, buf, v)
  }

  /**
   * print_text: the loop itself, writing to `out`. It produces exactly what
   * `Render` describes; the properties of that output are proved in RenderProperties.
   */
  method PrintText(buf: seq<char>, v: View) returns (reachedEnd: bool, out: seq<Event>)
    ensures out == Render(buf, v).out
    ensures reachedEnd == Render(buf, v).reachedEnd
  {
    var cursor := Start;
    reachedEnd := true;
    out := [];
    assert buf[0..] == buf;
    for i := 0 to |buf|
      invariant out + Run(cursor, buf[i..], v).out == Render(buf, v).out
      invariant Run(cursor, buf[i..], v).reachedEnd == Render(buf, v).reachedEnd
    {
      assert buf[i..][0] == buf[i] && buf[i..][1..] == buf[i + 1..];
      var step := PrintChar(cursor, buf[i], v);
      match step
      case Halt(o) =>
        out := out + o;
        reachedEnd := false;
        break;
      case Next(d, o) =>
        assert out + Run(cursor, buf[i..], v).out == (out + o) + Run(d, buf[i + 1..], v).out;
        cursor := d;
        out := out + o;
    }
  }

  /**
   * One pass of the loop body of print_text on character `ch`: the wrap and
   * stop checks, the line bookkeeping, the line classification and the output
   * of the character `input` (`buf[i]`). Each `return` is one of the source's `continue` or
   * `goto end` exits.
   */
  method PrintChar(c: Cursor, input: char, v: View) returns (step: Step)
    ensures step == StepChar(c, input, v)
  {
    var tmpi, line, preformattedTmp := c.col, c.line, c.ticks;
    var lineStart, lineType, preformattedLine := c.lineStart, c.lineType, c.preformatted;
    var out: seq<Event> := [];
    var ch := input;
    tmpi := tmpi + 1;
    var newline := ch == '\n';
    if tmpi > v.cols - 1 {
      if line >= v.startLine {
        out := out + [Put(ch)];
      }
      newline := true;
    }
    if line - v.startLine > v.rows - 2 {
      return Halt(out);
    }
    if newline {
      ch := '\n';
      line := line + 1;
      tmpi := 0;
      lineStart := true;
      preformattedTmp := 0;
      out := out + [ResetStyle];
      if lineType == PreformattedToggleLine {
        lineType := NormalLine;
        return Next(Cursor(tmpi, line, preformattedTmp, lineStart, lineType, preformattedLine), out);
      }
      lineType := NormalLine;
    }
    ghost var classified := Cursor(tmpi, line, preformattedTmp, lineStart, lineType, preformattedLine);
    assert StepChar(c, input, v) == Classify(classified, ch, v, out);
    if line < v.startLine - 1 {
      return Next(Cursor(tmpi, line, preformattedTmp, lineStart, lineType, preformattedLine), out);
    }
    if tmpi == 1 && ch == ' ' {
      return Next(Cursor(tmpi, line, preformattedTmp, lineStart, lineType, preformattedLine), out);
    }
    var printHeading := false;
    if preformattedLine {
      lineType := PreformattedTextLine;
      if lineStart && ch == '`' {
        preformattedTmp := preformattedTmp + 1;
        if preformattedTmp > 2 {
          preformattedLine := false;
        }
        lineType := PreformattedToggleLine;
        return Next(Cursor(tmpi, line, preformattedTmp, lineStart, lineType, preformattedLine), out);
      }
    } else {
      assert StepChar(c, input, v) == Markup(classified, ch, out);
      if lineStart {
        if ch == '`' {
          preformattedTmp := preformattedTmp + 1;
          if preformattedTmp > 2 {
            preformattedLine := !preformattedLine;
          }
          lineType := PreformattedToggleLine;
          return Next(Cursor(tmpi, line, preformattedTmp, lineStart, lineType, preformattedLine), out);
        } else if ch == '>' {
          lineStart := false;
          lineType := QuoteLine;
        } else if ch == '*' {
          lineStart := false;
          lineType := ListLine;
          out := out + [Bullet];
          return Next(Cursor(tmpi, line, preformattedTmp, lineStart, lineType, preformattedLine), out);
        } else if ch == '#' {
          lineType := Raise(lineType);
          return Next(Cursor(tmpi, line, preformattedTmp, lineStart, lineType, preformattedLine), out);
        } else if ch == '\n' {
        } else {
          if IsHeading(lineType) {
            printHeading := true;
          }
          lineStart := false;
        }
      }
      if lineType == PreformattedToggleLine {
        return Next(Cursor(tmpi, line, preformattedTmp, lineStart, lineType, preformattedLine), out);
      }
      out := out + StyleOf(lineType);
      if printHeading {
        out := out + [Put('#')];
      }
    }
    out := out + [Put(ch)];
    return Next(Cursor(tmpi, line, preformattedTmp, lineStart, lineType, preformattedLine), out);
  }
}

=== FILE: wrappers.dfy ===
/** Optional values, for the NULL pointers the C code returns or tests. */
module Wrappers {
  datatype Option<+T> = None | Some(value: T)
}
